=== FILE: README.md ===
# Lab4Tokenizer in Dafny

A model of the `Tokenizer` class of `tokenizer.py`. This is the word-level
tokenizer the lab builds its language model on. The model covers:

- **Preprocessing.** `preprocess` scans text with the regular expression
  `\w+` or one punctuation character. It optionally lowercases the pieces
  and glues them back together with single spaces. The exceptions are `<`
  and `/`, which are glued to what follows, and `>`, which is glued to
  what precedes. Finally it strips the result.
- **Tokenizing.** `tokenize` splits a string at every space.
  `word_tokenize` is `tokenize` after `preprocess`.
- **The vocabulary.** It has two views: `idx2word` is a list and
  `word2idx` is a dictionary. Around it sit `__len__` and the four
  special-token id properties.
- **Saving and loading.** `save_tokenizer` and `load_tokenizer` are
  modelled over the file's contents as a string.
- **The conversions.** These are `convert_tokens_to_ids`,
  `convert_ids_to_tokens` and `decode`. A Python exception they raise
  becomes a `Failure` carrying a `KeyError` or an `IndexError`.

The files:

- `wrappers.dfy`: `Option` and `Result`.
- `text.dfy` (module `Text`): character classes, `str.lower`, `str.strip`,
  `' '.join`.
- `preprocessing.dfy` (module `Preprocessing`): `preprocess` and its
  properties.
- `tokenization.dfy` (module `Tokenization`): `tokenize` and
  `word_tokenize`.
- `vocabulary.dfy` (module `Vocabulary`): the vocabulary, and the save and
  load logic.
- `tokenizer.dfy` (module `Tokenizers`): the `Tokenizer` object, its
  special-token ids and the conversions.
- `scenarios.dfy` (module `Scenarios`): the repository's own test
  expectations and the docstring behaviours, proved on the model.

**Where the code and its docstrings differ, the model follows the
code.** There are two points:

- The `preprocess` docstring says the punctuation class leaves out `<` and
  `>`. The regular expression at tokenizer.py:213 includes both. The
  special tokens survive because of the gluing rules at lines 217-221, not
  because of the scan.
- The `convert_tokens_to_ids` docstring leaves the shape of a single
  token's result open ("int | List[int]"), and its one single-token example
  uses a known token. The code returns `[id]` for a known single token and
  the bare unknown id for an unknown one (tokenizer.py:293-297). The model
  keeps both shapes (`TokenIds`).

`convert_tokens_to_ids` also looks up the literal key `'<unk>'` and not the
configured `unk_token`. The model does the same.

The main results are:

- **Preprocessing.** The output is well spaced. It rescans to exactly the
  pieces it was made from. Ignoring spaces, it holds exactly the kept
  characters of the input. Preprocessing is idempotent. Lowercasing
  commutes with it. Text tokens separated by runs of whitespace come out joined by single
  spaces; a gap may also be empty wherever that does not merge two word
  runs into one.
- **Tokenizing.** `tokenize` and `' '.join` are inverse to each other.
- **Saving and loading.** Loading is idempotent. Loading a saved
  vocabulary into a fresh tokenizer rebuilds it exactly.
- **The conversions.** Id to token and back is a round trip. Token to id
  and back is a round trip, up to the unknown token.

## Model

| member | source | states |
|---|---|---|
| Text.Lower | tokenizer.py:215-216 | lowercasing a character changes exactly the capitals A-Z, each to the letter 32 code points above, and keeps word, punctuation and whitespace characters in their class |
| Text.RStrip | tokenizer.py:220 | `rstrip` keeps a prefix that is empty or ends in a non-whitespace character, and everything it removes is whitespace |
| Text.LStrip | tokenizer.py:224 | `lstrip` keeps a suffix that is empty or starts with a non-whitespace character, and everything it removes is whitespace |
| Text.StripSpec | tokenizer.py:224 | `strip` returns the slice of its argument between the leading and the trailing whitespace runs, and that slice neither starts nor ends with whitespace |
| Text.StripFixpoint | tokenizer.py:224 | `strip` leaves a string unchanged exactly when the string has no whitespace at either end |
| Text.StripNewline | tokenizer.py:168 | stripping a read line gives back the token written on it, when the token has no whitespace at either end |
| Preprocessing.WordRunLen | tokenizer.py:213 | the `\w+` alternative matches the longest leading run of word characters |
| Preprocessing.ScanAllPieces | tokenizer.py:213 | every match of `findall` is either a run of word characters or a single punctuation character |
| Preprocessing.ScanPiece | tokenizer.py:213 | a run of word characters scans as one match, never split, and a punctuation character as itself |
| Preprocessing.ScanAppend | tokenizer.py:213 | when the seam does not join two word characters, the matches of a concatenation are the matches of each part in turn |
| Preprocessing.ScanBlank | tokenizer.py:213 | text without word or punctuation characters has no matches |
| Preprocessing.Pieces | tokenizer.py:213-216 | one piece per match, and lowercasing keeps each one a piece |
| Preprocessing.ScanLower | tokenizer.py:213-216 | scanning lowercased text gives the lowercased pieces of the original text, in the same number and order |
| Preprocessing.StepShape | tokenizer.py:217-223 | each loop iteration keeps the accumulated string printable, single-spaced and without leading whitespace |
| Preprocessing.StepDespace | tokenizer.py:217-223 | ignoring spaces, each loop iteration appends exactly the piece, including after the `rstrip` for `>` |
| Preprocessing.StepScan | tokenizer.py:217-223 | rescanning the accumulated string after an iteration gives the earlier pieces followed by this piece, so gluing never merges two pieces |
| Preprocessing.AssembleScan | tokenizer.py:214-223 | loop invariant: the accumulated string rescans to the pieces consumed so far |
| Preprocessing.AssembleDespace | tokenizer.py:214-223 | loop invariant: ignoring spaces, the accumulated string is the concatenation of the pieces consumed so far |
| Preprocessing.AssembleMarker | tokenizer.py:217-221 | a special token `<w>` or `</w>` is glued back intact and followed by one space |
| Preprocessing.PreprocessShape | tokenizer.py:212-224 | the output has no leading or trailing whitespace, no two consecutive spaces and no whitespace other than single spaces |
| Preprocessing.PreprocessRescan | tokenizer.py:212-224 | scanning the output again gives exactly the pieces scanned from the input |
| Preprocessing.PreprocessPieces | tokenizer.py:212-224 | with its spaces removed, the output is the concatenation of the (possibly lowercased) pieces |
| Preprocessing.PreprocessContent | tokenizer.py:212-224 | with its spaces removed, the output is the input with every character outside `\w` and the punctuation class dropped, lowercased when `lower` is set |
| Preprocessing.PreprocessEmpty | tokenizer.py:212-224 | the output is empty if and only if the input has no word or punctuation character |
| Preprocessing.PreprocessLower | tokenizer.py:215-216 | preprocessing with `lower` set equals lowercasing the input first and preprocessing without it |
| Preprocessing.PreprocessIdempotent | tokenizer.py:212-224 | preprocessing an already preprocessed text changes nothing |
| Preprocessing.PreprocessJoin | tokenizer.py:212-224 | text tokens (words, single punctuation characters other than `<`, `/`, `>`, and `<w>`/`</w>` markers) joined by single spaces come out unchanged, or lowercased when `lower` is set |
| Preprocessing.PreprocessSpread | tokenizer.py:212-224 | text tokens laid out with arbitrary runs of skipped characters (spaces, tabs, newlines) around them come out joined by single spaces; an empty gap is allowed wherever it does not merge two tokens into one word run |
| Tokenization.Split | tokenizer.py:243 | `split(' ')` returns at least one part and no part contains a space |
| Tokenization.JoinSplit | tokenizer.py:243 | joining the parts of `split(' ')` with single spaces gives back the original string |
| Tokenization.SplitJoin | tokenizer.py:243 | splitting a space-joined list of space-free words gives back the list |
| Tokenization.SplitNoEmpty | tokenizer.py:243 | no part of `split(' ')` is empty if and only if the string is non-empty, has no space at either end and no two consecutive spaces |
| Tokenization.ConcatSplit | tokenizer.py:243 | the parts of `split(' ')` together hold exactly the non-space characters of the string |
| Tokenization.TokenizeSplits | tokenizer.py:226-243 | `tokenize` returns space-free tokens that join back to its input, and `[""]` for the empty string |
| Tokenization.WordTokenizeShape | tokenizer.py:245-261 | `word_tokenize` returns the tokens of the preprocessed text: they join back to it, concatenate to the kept (lowercased) characters of the input, and none is empty unless the text preprocesses to nothing |
| Tokenization.WordTokenizeJoin | tokenizer.py:245-261 | `word_tokenize` of space-joined text tokens returns the tokens themselves, lowercased when `lower` is set |
| Vocabulary.Empty | tokenizer.py:55-56 | a fresh tokenizer's vocabulary is consistent and empty in both views |
| Vocabulary.Lookup | tokenizer.py:93-95 | a token has an id exactly when it is a key of `word2idx`, and in a consistent vocabulary that id indexes the token in `idx2word` |
| Vocabulary.SizeIsKeyCount | tokenizer.py:70-74 | in a consistent vocabulary `len(tokenizer)` is also the number of keys of `word2idx` |
| Vocabulary.ValidUnique | tokenizer.py:11-13 | a consistent vocabulary is determined by its `idx2word` list |
| Vocabulary.AddToken | tokenizer.py:169-171 | a new token gets the next id and is appended to `idx2word`; a known token changes nothing; existing ids never change; consistency is kept |
| Vocabulary.NewTokens | tokenizer.py:169 | the tokens a load adds are distinct, none of them was already known, and together with the known ones they are exactly the loaded tokens |
| Vocabulary.LoadTokens | tokenizer.py:167-171 | loading tokens keeps consistency and earlier ids, appends the unknown tokens to `idx2word` once each in first-seen order (so each gets the length before it as id), and adds exactly the loaded tokens as keys |
| Vocabulary.LoadSnoc | tokenizer.py:167-171 | loading one more token is one more `AddToken` step on the result, so lines are processed in file order |
| Vocabulary.Load | tokenizer.py:166-171 | loading lines adds exactly their stripped forms as keys, keeps every earlier id and appends the new stripped lines to `idx2word` once each, in first-seen order |
| Vocabulary.LoadKnown | tokenizer.py:169 | loading tokens that are all in the vocabulary changes nothing |
| Vocabulary.LoadTwice | tokenizer.py:166-171 | loading the same file twice gives the same vocabulary as loading it once |
| Vocabulary.LoadFresh | tokenizer.py:166-171 | distinct tokens not yet in the vocabulary are appended in file order, so the line number is the id |
| Vocabulary.TranslateNewlines | tokenizer.py:166 | a file opened in text mode yields no carriage returns |
| Vocabulary.TranslateNoCR | tokenizer.py:166 | text without carriage returns reads back unchanged |
| Vocabulary.TranslateCR | tokenizer.py:166 | `"\r\n"` reads as one newline, and so does a `'\r'` that no `'\n'` follows |
| Vocabulary.TranslateAppend | tokenizer.py:166 | the translation works piece by piece, for any cut that does not separate a `'\r'` from a following `'\n'` |
| Vocabulary.LineLen | tokenizer.py:167 | a line extends up to and including its first newline, or to the end of the file |
| Vocabulary.SplitLines | tokenizer.py:167 | the lines of a file together make up the whole file; each is non-empty and holds a newline at most as its last character, and every line but the last ends with one, so lines end exactly after each newline |
| Vocabulary.SplitSavedLines | tokenizer.py:136-138 | the file `save_tokenizer` writes reads back as one line per token, each the token followed by a newline |
| Vocabulary.SavedTokens | tokenizer.py:136-168 | stripping the lines read from a saved file gives back the saved tokens, when each is storable |
| Vocabulary.SaveLoad | tokenizer.py:124-171 | `load_tokenizer` on a fresh tokenizer, reading what `save_tokenizer` wrote, rebuilds both views exactly, when every token is storable |
| Tokenizers.SpecialId | tokenizer.py:88-122 | a special token's id is `None` exactly when the token is not a key, and otherwise its `word2idx` entry, which indexes it in `idx2word` |
| Tokenizers.UnkTokenId | tokenizer.py:88-95 | `unk_token_id` is defined exactly when `unk_token` is in the vocabulary, and then indexes it |
| Tokenizers.BosTokenId | tokenizer.py:97-104 | `bos_token_id` is defined exactly when `bos_token` is in the vocabulary, and then indexes it |
| Tokenizers.EosTokenId | tokenizer.py:106-113 | `eos_token_id` is defined exactly when `eos_token` is in the vocabulary, and then indexes it |
| Tokenizers.PadTokenId | tokenizer.py:115-122 | `pad_token_id` is defined exactly when `pad_token` is in the vocabulary, and then indexes it |
| Tokenizers.New | tokenizer.py:43-68 | the constructor keeps its arguments and starts with an empty vocabulary, so `len` is 0 and every special-token id is `None` |
| Tokenizers.ConvertTokenToIds | tokenizer.py:290-297 | a missing `'<unk>'` key raises `KeyError`; otherwise a known token gives the one-element list of its id, and an unknown token gives the bare unknown id |
| Tokenizers.ConvertTokensToIds | tokenizer.py:290-304 | a missing `'<unk>'` key raises `KeyError`; otherwise each token maps, position by position, to its id or the unknown id, and every id is in range |
| Tokenizers.ConvertIdToToken | tokenizer.py:386-387 | an id in range gives its token, whose `word2idx` entry is that id; an id out of range raises `IndexError` |
| Tokenizers.ConvertIdsToTokens | tokenizer.py:388-391 | succeeds exactly when every id is in range and then maps each id to its token; otherwise fails on the first out-of-range id |
| Tokenizers.DecodeFlat | tokenizer.py:415-416 | a non-empty flat list of ids in range decodes to the tokens of its ids; any failure is an `IndexError`: at `ids[0]` for an empty list, otherwise for the first id out of range |
| Tokenizers.DecodeRows | tokenizer.py:417-420 | each row of a batch decodes with `convert_ids_to_tokens`; the batch fails exactly when some row has an id out of range, and then with that first bad row's `IndexError` |
| Tokenizers.DecodeBatch | tokenizer.py:393-420 | a non-empty batch with all ids in range decodes element by element to the tokens of its ids; any failure is an `IndexError`: for an empty batch, otherwise the first bad row's |
| Tokenizers.DecodeBatchRows | tokenizer.py:415-420 | every non-empty row of a decoded batch is what decoding that row alone gives |
| Tokenizers.IdsRoundTrip | tokenizer.py:386-391 | converting in-range ids to tokens and back gives the same ids |
| Tokenizers.TokensRoundTrip | tokenizer.py:298-304 | converting tokens to ids and back gives the tokens, with each unknown token replaced by `<unk>` |
| Tokenizers.IdRoundTrip | tokenizer.py:386-387 | a single in-range id converted to its token and back gives the one-element list of that id |
| Scenarios.WordsThenPunct | tokenizer.py:222-224 | two words followed by a punctuation mark come out as the words and the mark separated by single spaces, with no trailing space |
| Scenarios.SlashExample | tokenizer.py:217-218 | a `/` between two words is glued to the word after it and separated from the word before it |
| Scenarios.CloseExample | tokenizer.py:219-221 | a `>` between two words is glued to the word before it |
| Scenarios.ChomskyExample | tests/preprocess_test.py:21-24 | with `lower=False`, "Noam Chomsky!" preprocesses to "Noam Chomsky !" |
| Scenarios.MarkersLayout | tests/preprocess_test.py:18 | the second test sentence's ten tokens, with `<unk>` touching the comma and single spaces elsewhere, are text tokens in a layout no gap of which merges two of them |
| Scenarios.MarkersExample | tests/preprocess_test.py:18-19 | that layout preprocesses to its ten tokens joined by single spaces, lowercased, with the comma split off `<unk>` and the markers intact, and `word_tokenize` returns the ten lowercased tokens |
| Scenarios.TestVocab | tests/convert_tokens_test.py:8-16 | the test's vocabulary has 11 tokens |
| Scenarios.TestVocabIds | tests/convert_tokens_test.py:10-12 | the test's ordinary tokens have the ids 0 to 6 |
| Scenarios.TestVocabMarkerIds | tests/convert_tokens_test.py:10-12 | the test's special tokens have the ids 7 to 10 |
| Scenarios.ConvertSingleExample | tests/convert_tokens_test.py:23 | "tall" converts to `[4]` |
| Scenarios.ConvertKnownExample | tests/convert_tokens_test.py:25 | a list of known tokens converts to their ids |
| Scenarios.ConvertUnknownExample | tests/convert_tokens_test.py:27 | "what" converts to the unknown id 9 inside a list |

## Left out

- `encode`, `__call__` and `create_vocab` are not modelled. In the source their bodies raise `NotImplementedError` (tokenizer.py:363 and :465), so no behaviour exists to model. `maxSequenceLength`, `add_special_tokens`, `padding` and `truncate` are kept in `Config` but affect nothing modelled.
- The `__main__` block (tokenizer.py:468-475) reads a file from disk and is not modelled.
- File I/O: `save_tokenizer` and `load_tokenizer` are modelled on the file's contents as a string. Opening errors, file encodings and the disk are left out. Text-mode newline translation is kept (`TranslateNewlines`).
- Text.IsWordChar and Text.Lower: `\w` and `str.lower` are ASCII only in the model. Python applies them to all of Unicode, so for example `é` is a word character there and dropped here.
- Tokenizers.ConvertIdToToken: ids are natural numbers. Python's negative indexing (`idx2word[-1]` at tokenizer.py:387 and :390) is not modelled, and neither are non-integer ids.
- Tokenizers.ConvertTokenToIds and Tokenizers.ConvertTokensToIds: the single-token and list overloads at tokenizer.py:293 are two functions. Arguments of other types are not modelled.
- Tokenizers.DecodeBatch and Tokenizers.DecodeFlat: `decode` dispatches on the type of `ids[0]` (tokenizer.py:415). The model has one function for a flat list and one for a batch of lists. Mixed lists, such as an int followed by a list, are not modelled.
- Scenarios.MarkersExample: it works on the second test's tokens and gaps (tests/preprocess_test.py:18-19). That the layout spells exactly the test's input string, and that the joined tokens spell exactly its expected string, are not proved as literal string equalities. The first test (tests/preprocess_test.py:15-16) is likewise a layout of text tokens with blank gaps, covered by `Preprocessing.PreprocessSpread` but not instantiated. The third test (tests/preprocess_test.py:23-24) is proved literally by `Scenarios.ChomskyExample`.
- Vocabulary.SaveLoad: the round trip is stated for tokens that are storable, meaning no line break and no whitespace at either end. The source gives such tokens back changed as well: `strip` removes their outer whitespace and a newline splits them.
- Python's integer width is unbounded, as in the model, so no wrap-around arises.

=== FILE: preprocessing.dfy ===
/** `Tokenizer.preprocess`: scan the text into word runs and single
    punctuation characters, optionally lowercase them, glue them back together
    with the `<`, `/` and `>` spacing rules, and strip the result. */
module Preprocessing {
  import opened Text

  /** A non-empty run of word characters. */
  predicate IsWordRun(p: string) {
    |p| > 0 && forall i :: 0 <= i < |p| ==> IsWordChar(p[i])
  }

  /** What one match of the scanning regular expression can be: a maximal
      word run or one punctuation character. */
  predicate IsPiece(p: string) {
    IsWordRun(p) || (|p| == 1 && IsPunct(p[0]))
  }

  predicate AllPieces(ps: seq<string>) {
    forall i :: 0 <= i < |ps| ==> IsPiece(ps[i])
  }

  /** Length of the word run at the front of `s`. */
  function WordRunLen(s: string): (n: nat)
    ensures n <= |s|
    ensures forall i :: 0 <= i < n ==> IsWordChar(s[i])
    ensures n == |s| || !IsWordChar(s[n])
    decreases |s|
  {
    if |s| == 0 || !IsWordChar(s[0]) then 0 else 1 + WordRunLen(s[1..])
  }

  /** `re.findall(r'[\w]+|[<punctuation>]', text)`: left to right, a maximal
      word run, else one punctuation character, else the character is skipped. */
  function Scan(s: string): (pieces: seq<string>)
    decreases |s|
  {
    if |s| == 0 then []
    else if IsWordChar(s[0]) then
      var n := WordRunLen(s);
      [s[..n]] + Scan(s[n..])
    else if IsPunct(s[0]) then [s[..1]] + Scan(s[1..])
    else Scan(s[1..])
  }

  /** Every match of the scan is a word run or one punctuation character. */
  lemma {:induction false} ScanAllPieces(s: string)
    ensures AllPieces(Scan(s))
    decreases |s|
  {
    if |s| > 0 {
      if IsWordChar(s[0]) {
        ScanAllPieces(s[WordRunLen(s)..]);
      } else {
        ScanAllPieces(s[1..]);
      }
    }
  }

  /** The scanned pieces, lowercased when `lower` is set. */
  function Pieces(text: string, lower: bool): (ps: seq<string>)
    ensures |ps| == |Scan(text)|
    ensures AllPieces(ps)
  {
    ScanAllPieces(text);
    var sc := Scan(text);
    if lower then LowerAll(sc) else sc
  }

  function LowerAll(ws: seq<string>): (r: seq<string>)
    ensures |r| == |ws|
    ensures AllPieces(ws) ==> AllPieces(r)
  {
    var r := seq(|ws|, i requires 0 <= i < |ws| => LowerStr(ws[i]));
    assert forall i :: 0 <= i < |ws| && IsPiece(ws[i]) ==> IsPiece(r[i]) by {
      forall i | 0 <= i < |ws| && IsPiece(ws[i]) ensures IsPiece(r[i]) {
        if IsWordRun(ws[i]) {
          assert forall k :: 0 <= k < |r[i]| ==> r[i][k] == Lower(ws[i][k]);
        }
      }
    }
    r
  }

  /** One iteration of the assembly loop. */
  function Step(acc: string, piece: string): string {
    if '<' in piece || '/' in piece then acc + piece
    else if '>' in piece then RStrip(acc) + piece + " "
    else acc + piece + " "
  }

  /** The assembly loop over `pieces`, starting from `acc`. */
  function Assemble(acc: string, pieces: seq<string>): string
    decreases |pieces|
  {
    if |pieces| == 0 then acc else Assemble(Step(acc, pieces[0]), pieces[1..])
  }

  /** `Tokenizer.preprocess(text)` with `self.lower == lower`. */
  function Preprocess(text: string, lower: bool): string {
    Strip(Assemble("", Pieces(text, lower)))
  }

  // ---------------------------------------------------------------------
  // Shape of the output

  /** No space is directly followed by another space. */
  predicate SingleSpaced(s: string) {
    forall i :: 0 < i < |s| && s[i] == ' ' ==> s[i - 1] != ' '
  }

  /** Every character is a word character, a punctuation character or `' '`. */
  predicate Printable(s: string) {
    forall i :: 0 <= i < |s| ==> s[i] == ' ' || IsWordChar(s[i]) || IsPunct(s[i])
  }

  /** Normalized text: only word/punctuation characters separated by single
      spaces, with no space at either end. */
  predicate WellSpaced(s: string) {
    Printable(s) && SingleSpaced(s) && (|s| == 0 || (s[0] != ' ' && s[|s| - 1] != ' '))
  }

  /** The output accumulated so far: printable, single-spaced, no leading
      space, and never ending in a word character. */
  predicate Accumulated(acc: string) {
    && Printable(acc)
    && SingleSpaced(acc)
    && (|acc| == 0 || acc[0] != ' ')
    && (|acc| == 0 || !IsWordChar(acc[|acc| - 1]))
  }

  lemma PieceGlue(p: string)
    requires IsPiece(p)
    ensures ('<' in p || '/' in p) <==> (p == "<" || p == "/")
    ensures '>' in p <==> p == ">"
    ensures ' ' !in p
  {
    if IsWordRun(p) {
      assert !IsWordChar('<') && !IsWordChar('/') && !IsWordChar('>') && !IsWordChar(' ');
    }
  }

  lemma PrintableAppend(a: string, b: string)
    requires Printable(a) && Printable(b)
    ensures Printable(a + b)
  {
    assert forall i :: |a| <= i < |a + b| ==> (a + b)[i] == b[i - |a|];
  }

  /** Joining two single-spaced strings keeps single spacing unless a space
      ends the first and starts the second. */
  lemma SingleSpacedAppend(a: string, b: string)
    requires SingleSpaced(a) && SingleSpaced(b)
    requires |a| == 0 || |b| == 0 || a[|a| - 1] != ' ' || b[0] != ' '
    ensures SingleSpaced(a + b)
  {
    var r := a + b;
    forall i | 0 < i < |r| && r[i] == ' ' ensures r[i - 1] != ' ' {
      if i < |a| {
        assert r[i] == a[i] && r[i - 1] == a[i - 1];
      } else if i > |a| {
        assert r[i] == b[i - |a|] && r[i - 1] == b[i - 1 - |a|];
      }
    }
  }

  lemma PrefixShape(s: string, n: nat)
    requires Printable(s) && SingleSpaced(s) && n <= |s|
    ensures Printable(s[..n]) && SingleSpaced(s[..n])
  {
    assert forall i :: 0 <= i < n ==> s[..n][i] == s[i];
  }

  lemma StepShapeClose(acc: string)
    requires Accumulated(acc)
    ensures Accumulated(Step(acc, ">"))
  {
    var k := RStrip(acc);
    assert Printable(k) && SingleSpaced(k) by {
      PrefixShape(acc, |k|);
    }
    var q := "> ";
    assert Printable(q) && SingleSpaced(q) by {
      assert q[0] == '>' && q[1] == ' ';
    }
    assert Accumulated(k + q) by {
      PrintableAppend(k, q);
      SingleSpacedAppend(k, q);
      assert (k + q)[|k + q| - 1] == ' ';
      if |k| > 0 {
        assert (k + q)[0] == acc[0];
      }
    }
    assert Step(acc, ">") == k + q;
  }

  lemma StepShapeSpaced(acc: string, p: string)
    requires Accumulated(acc) && IsPiece(p) && ' ' !in p
    requires !('<' in p || '/' in p) && !('>' in p)
    ensures Accumulated(Step(acc, p))
  {
    var q := p + " ";
    assert Printable(q) && SingleSpaced(q) && q[0] != ' ' by {
      assert forall i :: 0 <= i < |p| ==> q[i] == p[i] && p[i] != ' ';
      assert q[|p|] == ' ';
    }
    assert Accumulated(acc + q) by {
      PrintableAppend(acc, q);
      SingleSpacedAppend(acc, q);
      assert (acc + q)[|acc + q| - 1] == ' ';
      assert (acc + q)[0] != ' ' by {
        if |acc| == 0 {
          assert (acc + q)[0] == q[0];
        } else {
          assert (acc + q)[0] == acc[0];
        }
      }
    }
    assert Step(acc, p) == acc + q;
  }

  lemma StepShape(acc: string, p: string)
    requires Accumulated(acc) && IsPiece(p)
    ensures Accumulated(Step(acc, p))
  {
    PieceGlue(p);
    if p == "<" || p == "/" {
    } else if p == ">" {
      StepShapeClose(acc);
    } else {
      StepShapeSpaced(acc, p);
    }
  }

  /** Whitespace of accumulated output is only ever `' '`. */
  lemma PrintableSpaces(s: string, i: int)
    requires Printable(s) && 0 <= i < |s| && IsSpace(s[i])
    ensures s[i] == ' '
  {
  }

  /** What `rstrip` removes from accumulated output is a run of `' '`. */
  lemma AccumulatedTail(acc: string)
    requires Accumulated(acc)
    ensures acc == RStrip(acc) + acc[|RStrip(acc)|..]
    ensures forall i :: 0 <= i < |acc| - |RStrip(acc)| ==> acc[|RStrip(acc)|..][i] == ' '
  {
    var k := RStrip(acc);
    forall i | 0 <= i < |acc| - |k| ensures acc[|k|..][i] == ' ' {
      PrintableSpaces(acc, |k| + i);
    }
  }

  lemma StepDespaceClose(acc: string)
    requires Accumulated(acc)
    ensures Despace(Step(acc, ">")) == Despace(acc) + ">"
  {
    var k := RStrip(acc);
    assert Despace(acc) == Despace(k) by {
      var tail := acc[|k|..];
      AccumulatedTail(acc);
      DespaceAllSpaces(tail);
      DespaceAppend(k, tail);
    }
    assert Step(acc, ">") == k + ">" + " ";
    assert Despace(k + ">" + " ") == Despace(k) + ">" by {
      DespaceAppend(k + ">", " ");
      DespaceAppend(k, ">");
      assert Despace(" ") == "";
      assert Despace(">") == ">";
    }
  }

  lemma StepDespace(acc: string, p: string)
    requires Accumulated(acc) && IsPiece(p)
    ensures Despace(Step(acc, p)) == Despace(acc) + p
  {
    PieceGlue(p);
    DespaceNoSpace(p);
    if p == "<" || p == "/" {
      DespaceAppend(acc, p);
    } else if p == ">" {
      StepDespaceClose(acc);
    } else {
      DespaceAppend(acc + p, " ");
      DespaceAppend(acc, p);
      assert Despace(" ") == "";
    }
  }

  // ---------------------------------------------------------------------
  // Scanning concatenations

  /** Two strings whose meeting point cannot fall inside a word run. */
  predicate Separated(a: string, b: string) {
    |a| == 0 || |b| == 0 || !IsWordChar(a[|a| - 1]) || !IsWordChar(b[0])
  }

  lemma {:induction false} WordRunLenAppend(a: string, b: string)
    requires |a| > 0 && Separated(a, b)
    ensures WordRunLen(a + b) == WordRunLen(a)
    decreases |a|
  {
    if IsWordChar(a[0]) {
      assert (a + b)[1..] == a[1..] + b;
      if |a| > 1 {
        WordRunLenAppend(a[1..], b);
      }
    }
  }

  /** Scanning distributes over a concatenation whose seam is not inside a word run. */
  lemma {:induction false} ScanAppend(a: string, b: string)
    requires Separated(a, b)
    ensures Scan(a + b) == Scan(a) + Scan(b)
    decreases |a|, 1
  {
    if |a| == 0 {
      assert a + b == b;
    } else if IsWordChar(a[0]) {
      ScanAppendWord(a, b);
    } else {
      ScanAppendOther(a, b);
    }
  }

  lemma {:induction false} ScanAppendWord(a: string, b: string)
    requires |a| > 0 && IsWordChar(a[0]) && Separated(a, b)
    ensures Scan(a + b) == Scan(a) + Scan(b)
    decreases |a|, 0
  {
    var n := WordRunLen(a);
    ScanWordFront(a, b);
    assert Scan(a) == [a[..n]] + Scan(a[n..]);
    assert Separated(a[n..], b) by {
      if |a[n..]| > 0 {
        assert a[n..][|a[n..]| - 1] == a[|a| - 1];
      }
    }
    ScanAppend(a[n..], b);
    AppendAssoc([a[..n]], Scan(a[n..]), Scan(b));
  }

  /** A word run at the front of `a` is still the first match of `a + b`. */
  lemma ScanWordFront(a: string, b: string)
    requires |a| > 0 && IsWordChar(a[0]) && Separated(a, b)
    ensures Scan(a + b) == [a[..WordRunLen(a)]] + Scan(a[WordRunLen(a)..] + b)
  {
    var n := WordRunLen(a);
    WordRunLenAppend(a, b);
    assert (a + b)[..n] == a[..n];
    assert (a + b)[n..] == a[n..] + b;
  }

  lemma {:induction false} ScanAppendOther(a: string, b: string)
    requires |a| > 0 && !IsWordChar(a[0]) && Separated(a, b)
    ensures Scan(a + b) == Scan(a) + Scan(b)
    decreases |a|, 0
  {
    var head := if IsPunct(a[0]) then [a[..1]] else [];
    assert Scan(a + b) == head + Scan(a[1..] + b) by {
      assert (a + b)[1..] == a[1..] + b;
      assert (a + b)[..1] == a[..1];
    }
    assert Scan(a) == head + Scan(a[1..]);
    assert Separated(a[1..], b) by {
      if |a[1..]| > 0 {
        assert a[1..][|a[1..]| - 1] == a[|a| - 1];
      }
    }
    ScanAppend(a[1..], b);
    AppendAssoc(head, Scan(a[1..]), Scan(b));
  }

  /** A single piece scans to itself. */
  lemma ScanPiece(p: string)
    requires IsPiece(p)
    ensures Scan(p) == [p]
  {
    if IsWordRun(p) {
      assert WordRunLen(p) == |p|;
      assert p[..|p|] == p;
    } else {
      assert p[..1] == p;
    }
  }

  /** Characters that are neither word nor punctuation characters: the scan
      skips them. */
  predicate Blank(s: string) {
    forall i :: 0 <= i < |s| ==> !IsWordChar(s[i]) && !IsPunct(s[i])
  }

  /** Blank text scans to nothing. */
  lemma {:induction false} ScanBlank(s: string)
    requires Blank(s)
    ensures Scan(s) == []
    decreases |s|
  {
    if |s| > 0 {
      ScanBlank(s[1..]);
    }
  }

  lemma ScanSpaceTail(p: string)
    requires IsPiece(p)
    ensures Scan(p + " ") == [p]
  {
    ScanAppend(p, " ");
    ScanPiece(p);
    ScanBlank(" ");
  }

  /** The trailing spaces `rstrip` removes from accumulated output scan to nothing. */
  lemma ScanRStrip(acc: string)
    requires Accumulated(acc)
    ensures Scan(RStrip(acc)) == Scan(acc)
  {
    var k := RStrip(acc);
    var tail := acc[|k|..];
    AccumulatedTail(acc);
    ScanBlank(tail);
    ScanAppend(k, tail);
  }

  lemma StepScanClose(acc: string)
    requires Accumulated(acc)
    ensures Scan(Step(acc, ">")) == Scan(acc) + [">"]
  {
    var k := RStrip(acc);
    ScanRStrip(acc);
    assert Scan(k + (">" + " ")) == Scan(k) + [">"] by {
      assert Separated(k, ">" + " ") by {
        assert (">" + " ")[0] == '>';
      }
      ScanAppend(k, ">" + " ");
      ScanSpaceTail(">");
    }
    assert Step(acc, ">") == k + (">" + " ") by {
      AppendAssoc(k, ">", " ");
    }
  }

  lemma StepScan(acc: string, p: string)
    requires Accumulated(acc) && IsPiece(p)
    ensures Scan(Step(acc, p)) == Scan(acc) + [p]
  {
    PieceGlue(p);
    if p == "<" || p == "/" {
      ScanAppend(acc, p);
      ScanPiece(p);
    } else if p == ">" {
      StepScanClose(acc);
    } else {
      AppendAssoc(acc, p, " ");
      ScanAppend(acc, p + " ");
      ScanSpaceTail(p);
    }
  }

  /** The assembly loop keeps its shape invariant. */
  lemma {:induction false} AssembleShape(acc: string, ps: seq<string>)
    requires Accumulated(acc) && AllPieces(ps)
    ensures Accumulated(Assemble(acc, ps))
    decreases |ps|
  {
    if |ps| > 0 {
      StepShape(acc, ps[0]);
      AssembleShape(Step(acc, ps[0]), ps[1..]);
    }
  }

  lemma ConcatCons(d: string, ps: seq<string>)
    requires |ps| > 0
    ensures d + ps[0] + Concat(ps[1..]) == d + Concat(ps)
  {
    assert Concat(ps) == ps[0] + Concat(ps[1..]);
    AppendAssoc(d, ps[0], Concat(ps[1..]));
  }

  /** The assembly loop keeps every non-space character it is given, in order. */
  lemma {:induction false} AssembleDespace(acc: string, ps: seq<string>)
    requires Accumulated(acc) && AllPieces(ps)
    ensures Despace(Assemble(acc, ps)) == Despace(acc) + Concat(ps)
    decreases |ps|
  {
    if |ps| > 0 {
      var next := Step(acc, ps[0]);
      assert Accumulated(next) && Despace(next) == Despace(acc) + ps[0] by {
        StepShape(acc, ps[0]);
        StepDespace(acc, ps[0]);
      }
      assert Despace(Assemble(next, ps[1..])) == Despace(next) + Concat(ps[1..]) by {
        AssembleDespace(next, ps[1..]);
      }
      assert Assemble(acc, ps) == Assemble(next, ps[1..]);
      ConcatCons(Despace(acc), ps);
    }
  }

  /** The assembly loop emits text that scans back to the pieces it was given. */
  lemma {:induction false} AssembleScan(acc: string, ps: seq<string>)
    requires Accumulated(acc) && AllPieces(ps)
    ensures Scan(Assemble(acc, ps)) == Scan(acc) + ps
    decreases |ps|
  {
    if |ps| > 0 {
      var next := Step(acc, ps[0]);
      assert Accumulated(next) && Scan(next) == Scan(acc) + [ps[0]] by {
        StepShape(acc, ps[0]);
        StepScan(acc, ps[0]);
      }
      assert Scan(Assemble(next, ps[1..])) == Scan(next) + ps[1..] by {
        AssembleScan(next, ps[1..]);
      }
      assert Assemble(acc, ps) == Assemble(next, ps[1..]);
      ConsAppend(Scan(acc), ps);
    }
  }

  /** Accumulated output never starts with whitespace, so stripping it only
      removes the trailing spaces. */
  lemma StripAccumulated(acc: string) returns (tail: string)
    requires Accumulated(acc)
    ensures Strip(acc) == RStrip(acc)
    ensures acc == Strip(acc) + tail
    ensures forall k :: 0 <= k < |tail| ==> tail[k] == ' '
  {
    var k := RStrip(acc);
    if |k| > 0 {
      assert k[0] == acc[0];
      assert !IsSpace(k[0]);
    }
    assert LStrip(k) == k;
    tail := acc[|k|..];
    assert acc == k + tail;
    forall j | 0 <= j < |tail| ensures tail[j] == ' ' {
      PrintableSpaces(acc, |k| + j);
    }
  }

  lemma StripShape(acc: string)
    requires Accumulated(acc)
    ensures WellSpaced(Strip(acc))
  {
    var r := Strip(acc);
    assert r == acc[..|r|] by {
      var tail := StripAccumulated(acc);
    }
    assert Printable(r) && SingleSpaced(r) by {
      PrefixShape(acc, |r|);
    }
    assert |r| == 0 || r[|r| - 1] != ' ' by {
      var tail := StripAccumulated(acc);
      assert IsSpace(' ');
    }
    assert |r| == 0 || r[0] != ' ' by {
      if |r| > 0 {
        assert r[0] == acc[0];
      }
    }
  }

  lemma StripDespace(acc: string)
    requires Accumulated(acc)
    ensures Despace(Strip(acc)) == Despace(acc)
  {
    var tail := StripAccumulated(acc);
    DespaceAllSpaces(tail);
    DespaceAppend(Strip(acc), tail);
  }

  lemma StripScan(acc: string)
    requires Accumulated(acc)
    ensures Scan(Strip(acc)) == Scan(acc)
  {
    var tail := StripAccumulated(acc);
    ScanBlank(tail);
    ScanAppend(Strip(acc), tail);
  }

  lemma PreprocessUnfold(text: string, lower: bool)
    ensures AllPieces(Pieces(text, lower))
    ensures Preprocess(text, lower) == Strip(Assemble("", Pieces(text, lower)))
  {
  }

  /** The assembly loop started from nothing. */
  lemma AssembleFromEmpty(ps: seq<string>)
    requires AllPieces(ps)
    ensures Accumulated(Assemble("", ps))
    ensures Despace(Assemble("", ps)) == Concat(ps)
    ensures Scan(Assemble("", ps)) == ps
  {
    AssembleShape("", ps);
    assert Despace(Assemble("", ps)) == Concat(ps) by {
      AssembleDespace("", ps);
      assert Despace("") == "";
    }
    assert Scan(Assemble("", ps)) == ps by {
      AssembleScan("", ps);
      assert Scan("") == [];
    }
  }

  /** The output is normalized: word and punctuation characters separated by
      single spaces, nothing at either end. */
  lemma PreprocessShape(text: string, lower: bool)
    ensures WellSpaced(Preprocess(text, lower))
  {
    var ps := Pieces(text, lower);
    PreprocessUnfold(text, lower);
    AssembleFromEmpty(ps);
    StripShape(Assemble("", ps));
  }

  /** Deleting the spaces from the output gives exactly the scanned pieces,
      lowercased when `lower` is set. */
  lemma PreprocessPieces(text: string, lower: bool)
    ensures Despace(Preprocess(text, lower)) == Concat(Pieces(text, lower))
  {
    var ps := Pieces(text, lower);
    PreprocessUnfold(text, lower);
    AssembleFromEmpty(ps);
    StripDespace(Assemble("", ps));
  }

  /** Scanning the output again gives back the pieces it was built from. */
  lemma PreprocessRescan(text: string, lower: bool)
    ensures Scan(Preprocess(text, lower)) == Pieces(text, lower)
  {
    var ps := Pieces(text, lower);
    PreprocessUnfold(text, lower);
    AssembleFromEmpty(ps);
    StripScan(Assemble("", ps));
  }

  // ---------------------------------------------------------------------
  // What the output contains

  /** A character the scan keeps: a word or punctuation character. */
  predicate Kept(c: char) {
    IsWordChar(c) || IsPunct(c)
  }

  /** The characters of `s` the scan keeps, in order. An independent
      description of the scan's total output. */
  function Keep(s: string): (r: string)
    ensures |r| <= |s|
    decreases |s|
  {
    if |s| == 0 then "" else if Kept(s[0]) then [s[0]] + Keep(s[1..]) else Keep(s[1..])
  }

  lemma {:induction false} KeepAppend(a: string, b: string)
    ensures Keep(a + b) == Keep(a) + Keep(b)
    decreases |a|
  {
    if |a| == 0 {
      assert a + b == b;
    } else {
      assert (a + b)[1..] == a[1..] + b;
      KeepAppend(a[1..], b);
      if Kept(a[0]) {
        assert Keep(a + b) == [a[0]] + (Keep(a[1..]) + Keep(b));
      }
    }
  }

  lemma {:induction false} KeepWordRun(s: string)
    requires forall i :: 0 <= i < |s| ==> IsWordChar(s[i])
    ensures Keep(s) == s
    decreases |s|
  {
    if |s| > 0 {
      KeepWordRun(s[1..]);
      assert s == [s[0]] + s[1..];
    }
  }

  /** The scan loses no word or punctuation character and invents none. */
  lemma {:induction false} ScanKeep(s: string)
    ensures Concat(Scan(s)) == Keep(s)
    decreases |s|
  {
    if |s| > 0 {
      if IsWordChar(s[0]) {
        var n := WordRunLen(s);
        var rest := Scan(s[n..]);
        assert ([s[..n]] + rest)[1..] == rest;
        ScanKeep(s[n..]);
        assert s == s[..n] + s[n..];
        KeepAppend(s[..n], s[n..]);
        KeepWordRun(s[..n]);
      } else if IsPunct(s[0]) {
        var rest := Scan(s[1..]);
        assert ([s[..1]] + rest)[1..] == rest;
        ScanKeep(s[1..]);
      } else {
        ScanKeep(s[1..]);
      }
    }
  }

  lemma LowerStrAppend(a: string, b: string)
    ensures LowerStr(a + b) == LowerStr(a) + LowerStr(b)
  {
  }

  lemma {:induction false} ConcatLowerAll(ps: seq<string>)
    ensures Concat(LowerAll(ps)) == LowerStr(Concat(ps))
    decreases |ps|
  {
    if |ps| > 0 {
      assert LowerAll(ps)[1..] == LowerAll(ps[1..]);
      ConcatLowerAll(ps[1..]);
      LowerStrAppend(ps[0], Concat(ps[1..]));
    }
  }

  /** Deleting the spaces from the output leaves exactly the word and
      punctuation characters of the input, in order: lowercased when `lower`
      is set, with their case untouched otherwise. */
  lemma PreprocessContent(text: string, lower: bool)
    ensures Despace(Preprocess(text, lower)) == if lower then LowerStr(Keep(text)) else Keep(text)
  {
    PreprocessPieces(text, lower);
    ScanKeep(text);
    if lower {
      ConcatLowerAll(Scan(text));
    }
  }

  /** The output is empty exactly when the input has no word or punctuation
      character; in particular the empty text normalizes to "". */
  lemma PreprocessEmpty(text: string, lower: bool)
    ensures Preprocess(text, lower) == "" <==> Keep(text) == ""
  {
    var r := Preprocess(text, lower);
    PreprocessContent(text, lower);
    PreprocessShape(text, lower);
    if |r| > 0 {
      assert r[0] != ' ';
      assert Despace(r) == [r[0]] + Despace(r[1..]);
    }
  }

  // ---------------------------------------------------------------------
  // Lowercasing and idempotence

  lemma {:induction false} WordRunLenLower(s: string)
    ensures WordRunLen(LowerStr(s)) == WordRunLen(s)
    decreases |s|
  {
    if |s| > 0 {
      assert LowerStr(s)[1..] == LowerStr(s[1..]);
      WordRunLenLower(s[1..]);
    }
  }

  lemma LowerAllCons(x: string, rest: seq<string>)
    ensures LowerAll([x] + rest) == [LowerStr(x)] + LowerAll(rest)
  {
  }

  /** Lowercasing the text first or lowercasing each scanned piece is the same. */
  lemma {:induction false} ScanLower(s: string)
    ensures Scan(LowerStr(s)) == LowerAll(Scan(s))
    decreases |s|, 1
  {
    if |s| > 0 {
      if IsWordChar(s[0]) {
        ScanLowerWord(s);
      } else {
        ScanLowerOther(s);
      }
    }
  }

  lemma {:induction false} ScanLowerWord(s: string)
    requires |s| > 0 && IsWordChar(s[0])
    ensures Scan(LowerStr(s)) == LowerAll(Scan(s))
    decreases |s|, 0
  {
    var ls := LowerStr(s);
    var n := WordRunLen(s);
    assert Scan(ls) == [LowerStr(s[..n])] + Scan(LowerStr(s[n..])) by {
      assert WordRunLen(ls) == n && IsWordChar(ls[0]) by {
        WordRunLenLower(s);
      }
      assert ls[..n] == LowerStr(s[..n]);
      assert ls[n..] == LowerStr(s[n..]);
    }
    assert LowerAll(Scan(s)) == [LowerStr(s[..n])] + LowerAll(Scan(s[n..])) by {
      LowerAllCons(s[..n], Scan(s[n..]));
    }
    ScanLower(s[n..]);
  }

  lemma {:induction false} ScanLowerOther(s: string)
    requires |s| > 0 && !IsWordChar(s[0])
    ensures Scan(LowerStr(s)) == LowerAll(Scan(s))
    decreases |s|, 0
  {
    var ls := LowerStr(s);
    assert ls[1..] == LowerStr(s[1..]);
    ScanLower(s[1..]);
    if IsPunct(s[0]) {
      assert Scan(ls) == [LowerStr(s[..1])] + Scan(LowerStr(s[1..])) by {
        assert ls[..1] == LowerStr(s[..1]);
      }
      LowerAllCons(s[..1], Scan(s[1..]));
    } else {
      assert Scan(ls) == Scan(ls[1..]);
    }
  }

  /** With `lower` set, preprocessing is preprocessing of the lowercased text. */
  lemma PreprocessLower(text: string)
    ensures Preprocess(text, true) == Preprocess(LowerStr(text), false)
  {
    ScanLower(text);
  }

  lemma LowerAllIdempotent(ps: seq<string>)
    ensures LowerAll(LowerAll(ps)) == LowerAll(ps)
  {
    forall i | 0 <= i < |ps| ensures LowerStr(LowerStr(ps[i])) == LowerStr(ps[i]) {
      assert forall k :: 0 <= k < |ps[i]| ==> Lower(Lower(ps[i][k])) == Lower(ps[i][k]);
    }
  }

  /** Preprocessing normalized text changes nothing. */
  lemma PreprocessIdempotent(text: string, lower: bool)
    ensures Preprocess(Preprocess(text, lower), lower) == Preprocess(text, lower)
  {
    PreprocessRescan(text, lower);
    if lower {
      LowerAllIdempotent(Scan(text));
    }
  }

  // ---------------------------------------------------------------------
  // Special tokens survive preprocessing

  /** A bracketed marker such as `<s>`, `<unk>`, `<pad>` or `</s>`. */
  predicate IsMarker(w: string) {
    && |w| >= 3 && w[0] == '<' && w[|w| - 1] == '>'
    && (IsWordRun(w[1..|w| - 1]) || (w[1] == '/' && IsWordRun(w[2..|w| - 1])))
  }

  /** A token that preprocessing reproduces as one space-delimited word: a
      word run, a punctuation character other than `<`, `/`, `>`, or a marker. */
  predicate IsTextToken(w: string) {
    || IsWordRun(w)
    || (|w| == 1 && IsPunct(w[0]) && w[0] != '<' && w[0] != '/' && w[0] != '>')
    || IsMarker(w)
  }

  lemma {:induction false} AssembleAppend(acc: string, a: seq<string>, b: seq<string>)
    ensures Assemble(acc, a + b) == Assemble(Assemble(acc, a), b)
    decreases |a|
  {
    if |a| == 0 {
      assert a + b == b;
    } else {
      assert (a + b)[1..] == a[1..] + b;
      AssembleAppend(Step(acc, a[0]), a[1..], b);
    }
  }

  lemma RStripAfterWord(a: string, x: string)
    requires IsWordRun(x)
    ensures RStrip(a + x + " ") == a + x
  {
    var s := a + x + " ";
    assert s[..|s| - 1] == a + x;
    assert !IsSpace((a + x)[|a + x| - 1]);
  }

  /** A punctuation character that is not a word character is a match of
      its own. */
  lemma ScanPunctCons(c: char, t: string)
    requires IsPunct(c) && !IsWordChar(c)
    ensures Scan([c] + t) == [[c]] + Scan(t)
  {
    var s := [c] + t;
    assert s[0] == c && s[..1] == [c] && s[1..] == t;
  }

  /** A word run followed by a punctuation character scans to the two. */
  lemma ScanWordPunct(x: string, c: char)
    requires IsWordRun(x) && IsPunct(c) && !IsWordChar(c)
    ensures Scan(x + [c]) == [x, [c]]
  {
    ScanAppend(x, [c]);
    ScanPiece(x);
    ScanPiece([c]);
  }

  lemma ScanOpenMarker(x: string)
    requires IsWordRun(x)
    ensures Scan("<" + x + ">") == ["<", x, ">"]
  {
    var t := x + ">";
    assert Scan(t) == [x, ">"] by {
      ScanWordPunct(x, '>');
    }
    assert Scan("<" + t) == ["<", x, ">"] by {
      ScanPunctCons('<', t);
    }
    assert "<" + x + ">" == "<" + t by {
      AppendAssoc("<", x, ">");
    }
  }

  lemma ScanCloseMarker(x: string)
    requires IsWordRun(x)
    ensures Scan("</" + x + ">") == ["<", "/", x, ">"]
  {
    var t := x + ">";
    assert Scan(t) == [x, ">"] by {
      ScanWordPunct(x, '>');
    }
    var u := "/" + t;
    assert Scan(u) == ["/", x, ">"] by {
      ScanPunctCons('/', t);
    }
    assert Scan("<" + u) == ["<", "/", x, ">"] by {
      ScanPunctCons('<', u);
    }
    CloseMarkerText(x);
  }

  lemma CloseMarkerText(x: string)
    ensures "</" + x + ">" == "<" + ("/" + (x + ">"))
  {
    assert "</" == "<" + "/";
    AppendAssoc("</", x, ">");
    AppendAssoc("<", "/", x + ">");
  }

  lemma AssembleCons(acc: string, ps: seq<string>)
    requires |ps| > 0
    ensures Assemble(acc, ps) == Assemble(Step(acc, ps[0]), ps[1..])
  {
  }

  lemma StepWord(acc: string, x: string)
    requires IsWordRun(x)
    ensures Step(acc, x) == acc + x + " "
  {
    PieceGlue(x);
  }

  lemma AssembleOpenMarker(acc: string, x: string)
    requires IsWordRun(x)
    ensures Assemble(acc, Scan("<" + x + ">")) == acc + "<" + x + ">" + " "
  {
    ScanOpenMarker(x);
    var ps := ["<", x, ">"];
    var a1 := acc + "<";
    var a2 := acc + "<" + x + " ";
    var a3 := acc + "<" + x + ">" + " ";
    assert Step(acc, "<") == a1;
    assert Step(a1, x) == a2 by {
      StepWord(a1, x);
    }
    assert Step(a2, ">") == a3 by {
      RStripAfterWord(acc + "<", x);
    }
    assert Assemble(acc, ps) == a3 by {
      AssembleCons(acc, ps);
      AssembleCons(a1, ps[1..]);
      AssembleCons(a2, ps[2..]);
    }
  }

  lemma AssembleCloseMarker(acc: string, x: string)
    requires IsWordRun(x)
    ensures Assemble(acc, Scan("</" + x + ">")) == acc + "</" + x + ">" + " "
  {
    ScanCloseMarker(x);
    var ps := ["<", "/", x, ">"];
    var a1 := acc + "<";
    var a2 := acc + "</";
    var a3 := acc + "</" + x + " ";
    var a4 := acc + "</" + x + ">" + " ";
    assert Step(acc, "<") == a1;
    assert Step(a1, "/") == a2;
    assert Step(a2, x) == a3 by {
      StepWord(a2, x);
    }
    assert Step(a3, ">") == a4 by {
      RStripAfterWord(acc + "</", x);
    }
    assert Assemble(acc, ps) == a4 by {
      AssembleCons(acc, ps);
      AssembleCons(a1, ps[1..]);
      AssembleCons(a2, ps[2..]);
      AssembleCons(a3, ps[3..]);
    }
  }

  lemma OpenMarkerParts(w: string)
    requires |w| >= 3 && w[0] == '<' && w[|w| - 1] == '>'
    ensures w == "<" + w[1..|w| - 1] + ">"
  {
    assert w == [w[0]] + w[1..|w| - 1] + [w[|w| - 1]];
  }

  lemma CloseMarkerParts(w: string)
    requires |w| >= 3 && w[0] == '<' && w[1] == '/' && w[|w| - 1] == '>'
    ensures w == "</" + w[2..|w| - 1] + ">"
  {
    assert w == [w[0], w[1]] + w[2..|w| - 1] + [w[|w| - 1]];
  }

  lemma AssembleOpenMarkerToken(acc: string, w: string)
    requires |w| >= 3 && w[0] == '<' && w[|w| - 1] == '>' && IsWordRun(w[1..|w| - 1])
    ensures Assemble(acc, Scan(w)) == acc + w + " "
  {
    var x := w[1..|w| - 1];
    OpenMarkerParts(w);
    AssembleOpenMarker(acc, x);
    assert acc + w == acc + "<" + x + ">" by {
      AppendAssoc(acc, "<" + x, ">");
      AppendAssoc(acc, "<", x);
    }
  }

  lemma AssembleCloseMarkerToken(acc: string, w: string)
    requires |w| >= 3 && w[0] == '<' && w[1] == '/' && w[|w| - 1] == '>' && IsWordRun(w[2..|w| - 1])
    ensures Assemble(acc, Scan(w)) == acc + w + " "
  {
    var x := w[2..|w| - 1];
    CloseMarkerParts(w);
    AssembleCloseMarker(acc, x);
    assert acc + w == acc + "</" + x + ">" by {
      AppendAssoc(acc, "</" + x, ">");
      AppendAssoc(acc, "</", x);
    }
  }

  lemma AssembleMarker(acc: string, w: string)
    requires IsMarker(w)
    ensures Assemble(acc, Scan(w)) == acc + w + " "
  {
    if IsWordRun(w[1..|w| - 1]) {
      AssembleOpenMarkerToken(acc, w);
    } else {
      AssembleCloseMarkerToken(acc, w);
    }
  }

  lemma AssemblePiece(acc: string, w: string)
    requires IsPiece(w) && w != "<" && w != "/" && w != ">"
    ensures Assemble(acc, Scan(w)) == acc + w + " "
  {
    ScanPiece(w);
    PieceGlue(w);
    assert Assemble(acc, [w]) == Step(acc, w);
  }

  /** The glue rules put a marker back together: `<`, `w`, `>` (or `<`, `/`,
      `w`, `>`) assemble to the marker followed by one space. */
  lemma AssembleToken(acc: string, w: string)
    requires IsTextToken(w)
    ensures Assemble(acc, Scan(w)) == acc + w + " "
  {
    if IsMarker(w) {
      AssembleMarker(acc, w);
    } else {
      assert IsPiece(w) && w != "<" && w != "/" && w != ">" by {
        assert "<"[0] == '<' && "/"[0] == '/' && ">"[0] == '>';
        if IsWordRun(w) {
          assert IsWordChar(w[0]);
        }
      }
      AssemblePiece(acc, w);
    }
  }

  /** Text tokens joined by single spaces assemble to themselves plus one
      trailing space. */
  lemma {:induction false} AssembleJoin(acc: string, ws: seq<string>)
    requires |ws| > 0
    requires forall i :: 0 <= i < |ws| ==> IsTextToken(ws[i])
    ensures Assemble(acc, Scan(Join(ws))) == acc + (Join(ws) + " ")
    decreases |ws|
  {
    if |ws| == 1 {
      AssembleToken(acc, ws[0]);
    } else {
      var j := Join(ws[1..]);
      assert Scan(Join(ws)) == Scan(ws[0]) + Scan(j) by {
        assert Join(ws) == ws[0] + (" " + j);
        ScanAppend(ws[0], " " + j);
        ScanAppend(" ", j);
        ScanBlank(" ");
      }
      assert Assemble(acc, Scan(ws[0])) == acc + ws[0] + " " by {
        AssembleToken(acc, ws[0]);
      }
      assert Assemble(acc + ws[0] + " ", Scan(j)) == acc + ws[0] + " " + (j + " ") by {
        AssembleJoin(acc + ws[0] + " ", ws[1..]);
      }
      AssembleAppend(acc, Scan(ws[0]), Scan(j));
      var u := ws[0] + " ";
      assert Join(ws) == u + j;
      AppendAssoc(acc, ws[0], " ");
      AppendAssoc(acc, u, j + " ");
      AppendAssoc(u, j, " ");
    }
  }

  lemma {:induction false} JoinTrimmed(ws: seq<string>)
    requires forall i :: 0 <= i < |ws| ==> |ws[i]| > 0 && Trimmed(ws[i])
    ensures |ws| > 0 ==> |Join(ws)| > 0
    ensures Trimmed(Join(ws))
    decreases |ws|
  {
    if |ws| > 1 {
      JoinTrimmed(ws[1..]);
      var j := Join(ws[1..]);
      assert Join(ws) == ws[0] + " " + j;
      assert Join(ws)[0] == ws[0][0];
      assert Join(ws)[|Join(ws)| - 1] == j[|j| - 1];
    }
  }

  lemma TextTokenTrimmed(w: string)
    requires IsTextToken(w)
    ensures |w| > 0 && Trimmed(w)
  {
    if IsWordRun(w) {
      assert IsWordChar(w[0]) && IsWordChar(w[|w| - 1]);
    }
  }

  lemma StripTrailingSpace(w: string)
    requires Trimmed(w)
    ensures Strip(w + " ") == w
  {
    assert (w + " ")[..|w|] == w;
    assert RStrip(w + " ") == RStrip(w);
    StripFixpoint(w);
  }

  lemma PreprocessJoinCased(ws: seq<string>)
    requires |ws| > 0
    requires forall i :: 0 <= i < |ws| ==> IsTextToken(ws[i])
    ensures Preprocess(Join(ws), false) == Join(ws)
  {
    var j := Join(ws);
    assert Assemble("", Scan(j)) == j + " " by {
      AssembleJoin("", ws);
      assert "" + (j + " ") == j + " ";
    }
    assert Trimmed(j) by {
      forall i | 0 <= i < |ws| ensures |ws[i]| > 0 && Trimmed(ws[i]) {
        TextTokenTrimmed(ws[i]);
      }
      JoinTrimmed(ws);
    }
    StripTrailingSpace(j);
  }

  lemma TextTokenLower(w: string)
    requires IsTextToken(w)
    ensures IsTextToken(LowerStr(w))
  {
    var lw := LowerStr(w);
    if IsMarker(w) {
      assert lw[1..|lw| - 1] == LowerStr(w[1..|w| - 1]);
      assert lw[2..|lw| - 1] == LowerStr(w[2..|w| - 1]);
    }
  }

  lemma {:induction false} LowerJoin(ws: seq<string>)
    ensures LowerStr(Join(ws)) == Join(LowerAll(ws))
    decreases |ws|
  {
    if |ws| > 1 {
      LowerJoin(ws[1..]);
      assert LowerAll(ws)[1..] == LowerAll(ws[1..]);
      LowerStrAppend(ws[0] + " ", Join(ws[1..]));
      LowerStrAppend(ws[0], " ");
    }
  }

  /** Text tokens written with single spaces come out of preprocessing
      unchanged apart from lowercasing: the `<`/`/` glue rule and the `>`
      right-strip rule rebuild every marker as one space-delimited word. */
  lemma PreprocessJoin(ws: seq<string>, lower: bool)
    requires |ws| > 0
    requires forall i :: 0 <= i < |ws| ==> IsTextToken(ws[i])
    ensures Preprocess(Join(ws), lower) == Join(if lower then LowerAll(ws) else ws)
  {
    if lower {
      PreprocessLower(Join(ws));
      LowerJoin(ws);
      forall i | 0 <= i < |ws| ensures IsTextToken(LowerAll(ws)[i]) {
        TextTokenLower(ws[i]);
      }
      PreprocessJoinCased(LowerAll(ws));
    } else {
      PreprocessJoinCased(ws);
    }
  }

  // ---------------------------------------------------------------------
  // Layout

  /** `gaps[0] + ws[0] + gaps[1] + ... + ws[n - 1] + gaps[n]`: tokens laid
      out with runs of other characters around them. */
  function Spread(gaps: seq<string>, ws: seq<string>): string
    requires |gaps| == |ws| + 1
    decreases |ws|
  {
    if |ws| == 0 then gaps[0] else gaps[0] + ws[0] + Spread(gaps[1..], ws[1..])
  }

  /** Every gap is blank, and an empty gap never joins two tokens into one
      word run. */
  predicate Spaced(gaps: seq<string>, ws: seq<string>)
    requires |gaps| == |ws| + 1
  {
    && (forall i :: 0 <= i < |gaps| ==> Blank(gaps[i]))
    && (forall i :: 0 < i < |ws| ==> |gaps[i]| > 0 || Separated(ws[i - 1], ws[i]))
  }

  lemma SeparatedSpread(p: string, gaps: seq<string>, ws: seq<string>)
    requires |gaps| == |ws| + 1 && Blank(gaps[0])
    requires |ws| > 0 ==> |ws[0]| > 0
    requires |gaps[0]| > 0 || |ws| == 0 || Separated(p, ws[0])
    ensures Separated(p, Spread(gaps, ws))
  {
    var t := Spread(gaps, ws);
    if |gaps[0]| > 0 {
      assert t[0] == gaps[0][0];
    } else if |ws| > 0 {
      assert t[0] == ws[0][0];
    }
  }

  lemma SpacedTail(gaps: seq<string>, ws: seq<string>)
    requires |ws| > 0 && |gaps| == |ws| + 1 && Spaced(gaps, ws)
    ensures Spaced(gaps[1..], ws[1..])
  {
    assert forall i :: 0 < i < |ws| - 1 ==> gaps[1..][i] == gaps[i + 1] && ws[1..][i - 1] == ws[i] && ws[1..][i] == ws[i + 1];
  }

  /** The blank runs between text tokens do not matter to the scan: any
      layout scans like the tokens written with single spaces. */
  lemma {:induction false} ScanSpread(gaps: seq<string>, ws: seq<string>)
    requires |gaps| == |ws| + 1 && Spaced(gaps, ws)
    requires forall i :: 0 <= i < |ws| ==> IsTextToken(ws[i])
    ensures Scan(Spread(gaps, ws)) == Scan(Join(ws))
    decreases |ws|
  {
    if |ws| == 0 {
      ScanBlank(gaps[0]);
    } else {
      var rest := Spread(gaps[1..], ws[1..]);
      assert Scan(ws[0] + rest) == Scan(ws[0]) + Scan(Join(ws[1..])) by {
        SpacedTail(gaps, ws);
        ScanSpread(gaps[1..], ws[1..]);
        TextTokenTrimmed(ws[0]);
        if |ws| > 1 {
          TextTokenTrimmed(ws[1]);
        }
        SeparatedSpread(ws[0], gaps[1..], ws[1..]);
        ScanAppend(ws[0], rest);
      }
      assert Scan(Spread(gaps, ws)) == Scan(ws[0] + rest) by {
        assert Spread(gaps, ws) == gaps[0] + (ws[0] + rest) by {
          AppendAssoc(gaps[0], ws[0], rest);
        }
        TextTokenTrimmed(ws[0]);
        ScanBlank(gaps[0]);
        assert Separated(gaps[0], ws[0] + rest);
        ScanAppend(gaps[0], ws[0] + rest);
      }
      ScanJoinCons(ws);
    }
  }

  lemma ScanJoinCons(ws: seq<string>)
    requires |ws| > 0 && IsTextToken(ws[0])
    ensures Scan(Join(ws)) == Scan(ws[0]) + Scan(Join(ws[1..]))
  {
    if |ws| == 1 {
      assert Join(ws[1..]) == "";
    } else {
      var j := Join(ws[1..]);
      assert Join(ws) == ws[0] + (" " + j) by {
        AppendAssoc(ws[0], " ", j);
      }
      assert Scan(" " + j) == Scan(j) by {
        ScanAppend(" ", j);
        ScanBlank(" ");
      }
      TextTokenTrimmed(ws[0]);
      ScanAppend(ws[0], " " + j);
    }
  }

  /** Preprocessing normalizes layout: text tokens with any blank runs
      around them come out joined by single spaces. */
  lemma PreprocessSpread(gaps: seq<string>, ws: seq<string>, lower: bool)
    requires |ws| > 0 && |gaps| == |ws| + 1 && Spaced(gaps, ws)
    requires forall i :: 0 <= i < |ws| ==> IsTextToken(ws[i])
    ensures Preprocess(Spread(gaps, ws), lower) == Join(if lower then LowerAll(ws) else ws)
  {
    ScanSpread(gaps, ws);
    assert Preprocess(Spread(gaps, ws), lower) == Preprocess(Join(ws), lower);
    PreprocessJoin(ws, lower);
  }
}

=== FILE: scenarios.dfy ===
/** Concrete inputs worked through the model: the repository's own test
    expectations for `preprocess` and `convert_tokens_to_ids`, and the two
    spacing quirks of the assembly loop. */
module Scenarios {
  import opened Text
  import opened Preprocessing
  import opened Tokenization
  import opened Vocabulary
  import opened Wrappers
  import opened Tokenizers

  lemma WordsThenPunctScan(a: string, b: string, p: char)
    requires IsWordRun(a) && IsWordRun(b) && IsPunct(p) && !IsWordChar(p)
    ensures Scan(a + " " + b + [p]) == [a, b, [p]]
  {
    var t := " " + (b + [p]);
    assert Scan(t) == [b, [p]] by {
      ScanWordPunct(b, p);
      assert Blank(" ") && Separated(" ", b + [p]);
      ScanAppend(" ", b + [p]);
      ScanBlank(" ");
    }
    assert Scan(a + t) == [a, b, [p]] by {
      assert t[0] == ' ';
      ScanAppend(a, t);
      ScanPiece(a);
    }
    assert a + " " + b + [p] == a + t by {
      AppendAssoc(a + " ", b, [p]);
      AppendAssoc(a, " ", b + [p]);
    }
  }

  lemma WordsThenPunctAssemble(a: string, b: string, p: char)
    requires IsWordRun(a) && IsWordRun(b)
    requires IsPunct(p) && !IsWordChar(p) && p != '<' && p != '/' && p != '>'
    ensures Assemble("", [a, b, [p]]) == a + " " + b + " " + [p] + " "
  {
    var ps := [a, b, [p]];
    var a1 := a + " ";
    var a2 := a1 + b + " ";
    var a3 := a2 + [p] + " ";
    assert Step("", a) == a1 by {
      StepWord("", a);
      assert "" + a == a;
    }
    assert Step(a1, b) == a2 by {
      StepWord(a1, b);
    }
    assert Step(a2, [p]) == a3 by {
      PieceGlue([p]);
    }
    assert Assemble("", ps) == a3 by {
      AssembleCons("", ps);
      AssembleCons(a1, ps[1..]);
      AssembleCons(a2, ps[2..]);
    }
  }

  /** Two words and a closing punctuation mark: the mark is split off. */
  lemma WordsThenPunct(a: string, b: string, p: char)
    requires IsWordRun(a) && IsWordRun(b)
    requires IsPunct(p) && p != '<' && p != '/' && p != '>'
    requires !IsWordChar(p)
    ensures Preprocess(a + " " + b + [p], false) == a + " " + b + " " + [p]
  {
    WordsThenPunctScan(a, b, p);
    WordsThenPunctAssemble(a, b, p);
    var out := a + " " + b + " " + [p];
    assert Trimmed(out) by {
      assert out[0] == a[0];
    }
    StripTrailingSpace(out);
  }

  lemma ChomskyText(text: string, expected: string)
    requires text == "Noam Chomsky!" && expected == "Noam Chomsky !"
    ensures IsWordRun(text[..4]) && IsWordRun(text[5..12])
    ensures IsPunct(text[12]) && !IsWordChar(text[12]) && text[12] != '<' && text[12] != '/' && text[12] != '>'
    ensures text == text[..4] + " " + text[5..12] + [text[12]]
    ensures expected == text[..4] + " " + text[5..12] + " " + [text[12]]
  {
  }

  /** The repository's third preprocessing expectation: with `lower=False`
      the case is kept and the `!` becomes its own token. */
  lemma ChomskyExample(text: string, expected: string)
    requires text == "Noam Chomsky!" && expected == "Noam Chomsky !"
    ensures Preprocess(text, false) == expected
  {
    ChomskyText(text, expected);
    WordsThenPunct(text[..4], text[5..12], text[12]);
  }

  lemma SlashScan(a: string, b: string)
    requires IsWordRun(a) && IsWordRun(b)
    ensures Scan(a + "/" + b) == [a, "/", b]
  {
    assert Scan(['/'] + b) == ["/", b] by {
      ScanPunctCons('/', b);
      ScanPiece(b);
    }
    assert Separated(a, "/" + b) by {
      assert ("/" + b)[0] == '/';
    }
    ScanAppend(a, "/" + b);
    ScanPiece(a);
    AppendAssoc(a, "/", b);
  }

  lemma SlashAssemble(a: string, b: string)
    requires IsWordRun(a) && IsWordRun(b)
    ensures Assemble("", [a, "/", b]) == a + " /" + b + " "
  {
    var ps := [a, "/", b];
    var a1 := a + " ";
    var a2 := a1 + "/";
    var a3 := a2 + b + " ";
    assert Step("", a) == a1 by {
      StepWord("", a);
      assert "" + a == a;
    }
    assert Step(a2, b) == a3 by {
      StepWord(a2, b);
    }
    assert Assemble("", ps) == a3 by {
      AssembleCons("", ps);
      AssembleCons(a1, ps[1..]);
      AssembleCons(a2, ps[2..]);
    }
    assert a2 == a + " /" by {
      AppendAssoc(a, " ", "/");
    }
  }

  /** A piece containing `/` is glued to what follows, so a slash between
      two words keeps a space only in front of it. */
  lemma SlashExample(a: string, b: string)
    requires IsWordRun(a) && IsWordRun(b)
    ensures Preprocess(a + "/" + b, false) == a + " /" + b
  {
    SlashScan(a, b);
    SlashAssemble(a, b);
    var out := a + " /" + b;
    assert Trimmed(out) by {
      assert out[0] == a[0];
      assert out[|out| - 1] == b[|b| - 1];
    }
    StripTrailingSpace(out);
  }

  lemma CloseScan(a: string, b: string)
    requires IsWordRun(a) && IsWordRun(b)
    ensures Scan(a + " > " + b) == [a, ">", b]
  {
    var t := " " + b;
    var u := ">" + t;
    assert Scan(t) == [b] by {
      assert Blank(" ") && Separated(" ", b);
      ScanAppend(" ", b);
      ScanBlank(" ");
      ScanPiece(b);
    }
    assert Scan(u) == [">", b] by {
      ScanPunctCons('>', t);
    }
    assert Scan(" " + u) == [">", b] by {
      assert Blank(" ") && Separated(" ", u);
      ScanAppend(" ", u);
      ScanBlank(" ");
    }
    assert Scan(a + (" " + u)) == [a, ">", b] by {
      assert (" " + u)[0] == ' ';
      ScanAppend(a, " " + u);
      ScanPiece(a);
    }
    CloseText(a, b);
  }

  lemma CloseText(a: string, b: string)
    ensures a + " > " + b == a + (" " + (">" + (" " + b)))
  {
    assert " > " == " " + (">" + " ");
    AppendAssoc(">", " ", b);
    AppendAssoc(" ", ">" + " ", b);
    AppendAssoc(a, " > ", b);
  }

  lemma CloseAssemble(a: string, b: string)
    requires IsWordRun(a) && IsWordRun(b)
    ensures Assemble("", [a, ">", b]) == a + "> " + b + " "
  {
    var ps := [a, ">", b];
    var a1 := a + " ";
    var a2 := a + "> ";
    var a3 := a2 + b + " ";
    assert Step("", a) == a1 by {
      StepWord("", a);
      assert "" + a == a;
    }
    assert Step(a1, ">") == a2 by {
      RStripAfterWord("", a);
      assert "" + a == a;
      AppendAssoc(a, ">", " ");
    }
    assert Step(a2, b) == a3 by {
      StepWord(a2, b);
    }
    assert Assemble("", ps) == a3 by {
      AssembleCons("", ps);
      AssembleCons(a1, ps[1..]);
      AssembleCons(a2, ps[2..]);
    }
  }

  /** A lone `>` pulls itself onto the previous word. */
  lemma CloseExample(a: string, b: string)
    requires IsWordRun(a) && IsWordRun(b)
    ensures Preprocess(a + " > " + b, false) == a + "> " + b
  {
    CloseScan(a, b);
    CloseAssemble(a, b);
    var out := a + "> " + b;
    assert Trimmed(out) by {
      assert out[0] == a[0];
      assert out[|out| - 1] == b[|b| - 1];
    }
    StripTrailingSpace(out);
  }

  /** The marker tokens of the repository's second preprocessing example. */
  lemma MarkersAreTextTokens()
    ensures IsMarker("<s>") && IsMarker("<unk>") && IsMarker("</s>") && IsMarker("<pad>")
  {
    assert "<s>"[1..2] == "s";
    assert "<unk>"[1..4] == "unk";
    assert "</s>"[2..3] == "s";
    assert "<pad>"[1..4] == "pad";
  }

  lemma LowerSentence(ws: seq<string>, out: seq<string>)
    requires ws == ["<s>", "She", "loves", "<unk>", ",", "cat", "</s>", "<pad>", "<pad>", "<pad>"]
    requires out == ["<s>", "she", "loves", "<unk>", ",", "cat", "</s>", "<pad>", "<pad>", "<pad>"]
    ensures LowerAll(ws) == out
  {
    forall i | 0 <= i < |ws| ensures LowerAll(ws)[i] == out[i] {
      if i == 1 {
        assert LowerStr("She") == "she" by {
          assert Lower('S') == 's';
        }
      } else {
        assert ws[i] == out[i];
        LowerStrNoUpper(out[i]);
      }
    }
  }

  /** The tokens and gaps of the repository's second preprocessing
      expectation: `<unk>` touches the comma, every other pair is one space
      apart. */
  lemma MarkersLayout(gaps: seq<string>, ws: seq<string>)
    requires gaps == ["", " ", " ", " ", "", " ", " ", " ", " ", " ", ""]
    requires ws == ["<s>", "She", "loves", "<unk>", ",", "cat", "</s>", "<pad>", "<pad>", "<pad>"]
    ensures |gaps| == |ws| + 1 && Spaced(gaps, ws)
    ensures forall i :: 0 <= i < |ws| ==> IsTextToken(ws[i])
  {
    MarkersAreTextTokens();
    assert Separated(ws[3], ws[4]);
  }

  /** The repository's second preprocessing expectation, in its own layout:
      the special tokens stay intact, the comma is split off `<unk>`, the
      words are lowercased, and `word_tokenize` returns the tokens one for
      one. */
  lemma MarkersExample(gaps: seq<string>, ws: seq<string>, out: seq<string>)
    requires gaps == ["", " ", " ", " ", "", " ", " ", " ", " ", " ", ""]
    requires ws == ["<s>", "She", "loves", "<unk>", ",", "cat", "</s>", "<pad>", "<pad>", "<pad>"]
    requires out == ["<s>", "she", "loves", "<unk>", ",", "cat", "</s>", "<pad>", "<pad>", "<pad>"]
    ensures Preprocess(Spread(gaps, ws), true) == Join(out)
    ensures WordTokenize(Spread(gaps, ws), true) == out
  {
    MarkersLayout(gaps, ws);
    PreprocessSpread(gaps, ws, true);
    PreprocessJoin(ws, true);
    WordTokenizeJoin(ws, true);
    LowerSentence(ws, out);
  }

  /** The vocabulary the repository's conversion test installs. */
  function TestVocab(): (v: Vocab)
    ensures Size(v) == 11
  {
    Vocab(["is", "the", "man", "who", "tall", "happy", "?", "<s>", "</s>", "<unk>", "<pad>"],
          map["is" := 0, "the" := 1, "man" := 2, "who" := 3, "tall" := 4, "happy" := 5,
              "?" := 6, "<s>" := 7, "</s>" := 8, "<unk>" := 9, "<pad>" := 10])
  }

  lemma WhatUnknown()
    ensures "what" !in TestVocab().word2idx
  {
    var keys := TestVocab().word2idx.Keys;
    assert keys == {"is", "the", "man", "who", "tall", "happy", "?", "<s>", "</s>", "<unk>", "<pad>"};
  }

  /** The conversion test's expectations: a known token gives a one-element
      list. */
  lemma ConvertSingleExample()
    ensures ConvertTokenToIds(TestVocab(), "tall") == Success(IdList([4]))
  {
  }

  lemma TestVocabIds(v: Vocab)
    requires v == TestVocab()
    ensures "is" in v.word2idx && v.word2idx["is"] == 0
    ensures "the" in v.word2idx && v.word2idx["the"] == 1
    ensures "man" in v.word2idx && v.word2idx["man"] == 2
    ensures "who" in v.word2idx && v.word2idx["who"] == 3
    ensures "tall" in v.word2idx && v.word2idx["tall"] == 4
    ensures "happy" in v.word2idx && v.word2idx["happy"] == 5
    ensures "?" in v.word2idx && v.word2idx["?"] == 6
  {
  }

  lemma TestVocabMarkerIds(v: Vocab)
    requires v == TestVocab()
    ensures "<s>" in v.word2idx && v.word2idx["<s>"] == 7
    ensures "</s>" in v.word2idx && v.word2idx["</s>"] == 8
    ensures Unk in v.word2idx && v.word2idx[Unk] == 9
    ensures "<pad>" in v.word2idx && v.word2idx["<pad>"] == 10
  {
  }

  lemma SeqOfEight(r: seq<nat>)
    requires |r| == 8
    ensures r == [r[0], r[1], r[2], r[3], r[4], r[5], r[6], r[7]]
  {
  }

  lemma SeqOfSix(r: seq<nat>)
    requires |r| == 6
    ensures r == [r[0], r[1], r[2], r[3], r[4], r[5]]
  {
  }

  /** The conversion test's expectation for a sentence of known tokens. */
  lemma ConvertKnownExample(v: Vocab, tokens: seq<string>)
    requires v == TestVocab()
    requires tokens == ["is", "the", "man", "who", "is", "tall", "happy", "?"]
    ensures ConvertTokensToIds(v, tokens) == Success([0, 1, 2, 3, 0, 4, 5, 6])
  {
    assert Unk in v.word2idx by {
      TestVocabMarkerIds(v);
    }
    var r := ConvertTokensToIds(v, tokens).value;
    assert r[0] == 0 && r[1] == 1 && r[2] == 2 && r[3] == 3 by {
      TestVocabIds(v);
    }
    assert r[4] == 0 && r[5] == 4 && r[6] == 5 && r[7] == 6 by {
      TestVocabIds(v);
    }
    SeqOfEight(r);
  }

  /** The conversion test's expectation with an unknown word: `what` gets
      the `<unk>` id. */
  lemma ConvertUnknownExample(v: Vocab, tokens: seq<string>)
    requires v == TestVocab()
    requires tokens == ["<s>", "what", "the", "man", "is", "<pad>"]
    ensures ConvertTokensToIds(v, tokens) == Success([7, 9, 1, 2, 0, 10])
  {
    assert Unk in v.word2idx by {
      TestVocabMarkerIds(v);
    }
    var r := ConvertTokensToIds(v, tokens).value;
    assert r[0] == 7 && r[1] == 9 && r[5] == 10 by {
      TestVocabMarkerIds(v);
      WhatUnknown();
    }
    assert r[2] == 1 && r[3] == 2 && r[4] == 0 by {
      TestVocabIds(v);
    }
    SeqOfSix(r);
  }
}

=== FILE: text.dfy ===
/** Character classes, case mapping and whitespace trimming used by the
    tokenizer, plus joining a list of words with single spaces (Python's
    `' '.join`). Word characters and lowercasing are restricted to ASCII;
    whitespace is the full set of `str.isspace`. */
module Text {

  /** A regular-expression word character `\w`: an ASCII letter, digit or `_`. */
  predicate IsWordChar(c: char) {
    'a' <= c <= 'z' || 'A' <= c <= 'Z' || '0' <= c <= '9' || c == '_'
  }

  /** One of the 32 ASCII punctuation characters, `<`, `>` and `_` included. */
  predicate IsPunct(c: char) {
    '!' <= c <= '/' || ':' <= c <= '@' || '[' <= c <= '`' || '{' <= c <= '~'
  }

  /** A character that Python's `str.strip` removes: the characters for
      which `str.isspace` holds. */
  predicate IsSpace(c: char) {
    || c == ' ' || '\t' <= c <= '\r' || '\U{1C}' <= c <= '\U{1F}'
    || c == '\U{85}' || c == '\U{A0}' || c == '\U{1680}'
    || '\U{2000}' <= c <= '\U{200A}' || c == '\U{2028}' || c == '\U{2029}'
    || c == '\U{202F}' || c == '\U{205F}' || c == '\U{3000}'
  }

  /** ASCII `str.lower` on one character. */
  function Lower(c: char): (d: char)
    ensures IsWordChar(d) <==> IsWordChar(c)
    ensures IsPunct(d) <==> IsPunct(c)
    ensures IsSpace(d) <==> IsSpace(c)
    ensures !('A' <= d <= 'Z')
    ensures c != d ==> 'A' <= c <= 'Z' && d as int == c as int + 32
  {
    if 'A' <= c <= 'Z' then (c as int + 32) as char else c
  }

  /** ASCII `str.lower` on a string. */
  function LowerStr(s: string): (r: string)
    ensures |r| == |s|
  {
    seq(|s|, i requires 0 <= i < |s| => Lower(s[i]))
  }

  /** Lowercasing leaves a string without capital letters unchanged. */
  lemma LowerStrNoUpper(s: string)
    requires forall i :: 0 <= i < |s| ==> !('A' <= s[i] <= 'Z')
    ensures LowerStr(s) == s
  {
  }

  /** Python's `str.rstrip()`: the longest prefix that does not end in
      whitespace; everything removed is whitespace. */
  function RStrip(s: string): (r: string)
    ensures |r| <= |s| && r == s[..|r|]
    ensures |r| == 0 || !IsSpace(r[|r| - 1])
    ensures forall i :: |r| <= i < |s| ==> IsSpace(s[i])
    decreases |s|
  {
    if |s| > 0 && IsSpace(s[|s| - 1]) then RStrip(s[..|s| - 1]) else s
  }

  /** Python's `str.lstrip()`: the longest suffix that does not start with
      whitespace; everything removed is whitespace. */
  function LStrip(s: string): (r: string)
    ensures |r| <= |s| && r == s[|s| - |r|..]
    ensures |r| == 0 || !IsSpace(r[0])
    ensures forall i :: 0 <= i < |s| - |r| ==> IsSpace(s[i])
    decreases |s|
  {
    if |s| > 0 && IsSpace(s[0]) then LStrip(s[1..]) else s
  }

  /** Python's `str.strip()`. */
  function Strip(s: string): string {
    LStrip(RStrip(s))
  }

  /** Stripping keeps the slice of `s` between its leading and its trailing
      whitespace, and that slice has no whitespace at either end. */
  lemma StripSpec(s: string)
    ensures |Strip(s)| <= |RStrip(s)|
    ensures Strip(s) == s[|RStrip(s)| - |Strip(s)|..|RStrip(s)|]
    ensures forall i :: 0 <= i < |RStrip(s)| - |Strip(s)| ==> IsSpace(s[i])
    ensures forall i :: |RStrip(s)| <= i < |s| ==> IsSpace(s[i])
    ensures |Strip(s)| == 0 || (!IsSpace(Strip(s)[0]) && !IsSpace(Strip(s)[|Strip(s)| - 1]))
  {
    var k := RStrip(s);
    var r := LStrip(k);
    assert forall i :: 0 <= i < |k| ==> k[i] == s[i];
    if |r| > 0 {
      assert r[|r| - 1] == k[|k| - 1];
    }
  }

  /** `s` has no whitespace at either end. */
  predicate Trimmed(s: string) {
    |s| == 0 || (!IsSpace(s[0]) && !IsSpace(s[|s| - 1]))
  }

  /** Stripping changes exactly the strings that have whitespace at an end. */
  lemma StripFixpoint(s: string)
    ensures Strip(s) == s <==> Trimmed(s)
  {
    StripSpec(s);
    if Trimmed(s) && |s| > 0 {
      assert RStrip(s) == s;
      assert LStrip(s) == s;
    }
  }

  /** A line read back with its newline strips to the word that was written. */
  lemma StripNewline(w: string)
    requires Trimmed(w)
    ensures Strip(w + "\n") == w
  {
    assert (w + "\n")[..|w|] == w;
    assert RStrip(w + "\n") == RStrip(w);
    StripFixpoint(w);
  }

  /** Regrouping a concatenation, stated once so that proofs need not
      rediscover it element by element. */
  lemma AppendAssoc<T>(x: seq<T>, y: seq<T>, z: seq<T>)
    ensures x + (y + z) == x + y + z
  {
  }

  /** Putting the head of a non-empty sequence back in front of its tail,
      after a prefix. */
  lemma ConsAppend<T>(x: seq<T>, ys: seq<T>)
    requires |ys| > 0
    ensures x + [ys[0]] + ys[1..] == x + ys
  {
    assert [ys[0]] + ys[1..] == ys;
    AppendAssoc(x, [ys[0]], ys[1..]);
  }

  /** Python's `' '.join(words)`. */
  function Join(words: seq<string>): (r: string)
    ensures |words| == 1 ==> r == words[0]
    decreases |words|
  {
    if |words| == 0 then ""
    else if |words| == 1 then words[0]
    else words[0] + " " + Join(words[1..])
  }

  /** Concatenation of a list of strings (`''.join`). */
  function Concat(parts: seq<string>): (r: string)
    decreases |parts|
  {
    if |parts| == 0 then "" else parts[0] + Concat(parts[1..])
  }

  lemma {:induction false} ConcatAppend(a: seq<string>, b: seq<string>)
    ensures Concat(a + b) == Concat(a) + Concat(b)
    decreases |a|
  {
    if |a| == 0 {
      assert a + b == b;
    } else {
      assert (a + b)[1..] == a[1..] + b;
      ConcatAppend(a[1..], b);
    }
  }

  /** `s` with every space character `' '` deleted. */
  function Despace(s: string): (r: string)
    ensures |r| <= |s|
    ensures forall i :: 0 <= i < |r| ==> r[i] != ' '
    decreases |s|
  {
    if |s| == 0 then "" else (if s[0] == ' ' then "" else [s[0]]) + Despace(s[1..])
  }

  lemma {:induction false} DespaceAppend(a: string, b: string)
    ensures Despace(a + b) == Despace(a) + Despace(b)
    decreases |a|
  {
    if |a| == 0 {
      assert a + b == b;
    } else {
      assert (a + b)[1..] == a[1..] + b;
      DespaceAppend(a[1..], b);
    }
  }

  /** Deleting spaces removes exactly the spaces: a string without them is kept whole. */
  lemma {:induction false} DespaceNoSpace(s: string)
    ensures Despace(s) == s <==> ' ' !in s
    decreases |s|
  {
    if |s| > 0 {
      DespaceNoSpace(s[1..]);
      if s[0] == ' ' {
        assert |Despace(s)| < |s|;
      } else {
        assert s == [s[0]] + s[1..];
      }
    }
  }

  /** A string made only of spaces vanishes when spaces are deleted. */
  lemma {:induction false} DespaceAllSpaces(s: string)
    requires forall i :: 0 <= i < |s| ==> s[i] == ' '
    ensures Despace(s) == ""
    decreases |s|
  {
    if |s| > 0 {
      DespaceAllSpaces(s[1..]);
    }
  }
}

=== FILE: tokenization.dfy ===
/** `Tokenizer.tokenize` (Python's `split(' ')`) and `Tokenizer.word_tokenize`
    (preprocess, then tokenize). */
module Tokenization {
  import opened Text
  import opened Preprocessing

  /** Python's `s.split(' ')`: the space-free segments between single
      spaces, empty segments included. */
  function Split(s: string): (parts: seq<string>)
    ensures |parts| >= 1
    ensures forall i :: 0 <= i < |parts| ==> ' ' !in parts[i]
    decreases |s|
  {
    if |s| == 0 then [""]
    else
      var rest := Split(s[1..]);
      if s[0] == ' ' then [""] + rest else [[s[0]] + rest[0]] + rest[1..]
  }

  /** `Tokenizer.tokenize(text)`. */
  function Tokenize(text: string): seq<string> {
    Split(text)
  }

  /** `Tokenizer.word_tokenize(text)` with `self.lower == lower`. */
  function WordTokenize(text: string, lower: bool): seq<string> {
    Tokenize(Preprocess(text, lower))
  }

  lemma JoinCons(ws: seq<string>)
    requires |ws| > 1
    ensures Join(ws) == ws[0] + " " + Join(ws[1..])
  {
  }

  /** Joining the pieces of a split with `' '` gives back the string. */
  lemma {:induction false} JoinSplit(s: string)
    ensures Join(Split(s)) == s
    decreases |s|
  {
    if |s| > 0 {
      var rest := Split(s[1..]);
      JoinSplit(s[1..]);
      if s[0] == ' ' {
        JoinCons([""] + rest);
        assert ([""] + rest)[1..] == rest;
        assert s == " " + s[1..];
      } else if |rest| == 1 {
        assert s == [s[0]] + s[1..];
      } else {
        var first := [s[0]] + rest[0];
        JoinCons([first] + rest[1..]);
        assert ([first] + rest[1..])[1..] == rest[1..];
        JoinCons(rest);
        assert s == [s[0]] + s[1..];
      }
    }
  }

  /** A string without spaces splits into itself alone. */
  lemma {:induction false} SplitNoSpace(w: string)
    requires ' ' !in w
    ensures Split(w) == [w]
    decreases |w|
  {
    if |w| > 0 {
      SplitNoSpace(w[1..]);
      assert [w[0]] + w[1..] == w;
    }
  }

  lemma {:induction false} SplitWordThenSpace(w: string, t: string)
    requires ' ' !in w
    ensures Split(w + " " + t) == [w] + Split(t)
    decreases |w|
  {
    var s := w + " " + t;
    if |w| == 0 {
      assert s[1..] == t;
    } else {
      assert s[1..] == w[1..] + " " + t;
      SplitWordThenSpace(w[1..], t);
      assert [w[0]] + w[1..] == w;
    }
  }

  /** Splitting words joined with single spaces gives back the words, as long
      as none of them contains a space. */
  lemma {:induction false} SplitJoin(ws: seq<string>)
    requires |ws| >= 1
    requires forall i :: 0 <= i < |ws| ==> ' ' !in ws[i]
    ensures Split(Join(ws)) == ws
    decreases |ws|
  {
    if |ws| == 1 {
      SplitNoSpace(ws[0]);
    } else {
      JoinCons(ws);
      SplitWordThenSpace(ws[0], Join(ws[1..]));
      SplitJoin(ws[1..]);
      assert [ws[0]] + ws[1..] == ws;
    }
  }

  /** Deleting the spaces of a string concatenates its split. */
  lemma {:induction false} ConcatSplit(s: string)
    ensures Concat(Split(s)) == Despace(s)
    decreases |s|
  {
    if |s| > 0 {
      var rest := Split(s[1..]);
      ConcatSplit(s[1..]);
      if s[0] == ' ' {
        assert ([""] + rest)[1..] == rest;
      } else {
        var first := [s[0]] + rest[0];
        assert ([first] + rest[1..])[1..] == rest[1..];
        assert Concat(rest) == rest[0] + Concat(rest[1..]);
      }
    }
  }

  /** A non-empty string with no space at either end and no two spaces in a row. */
  predicate SpaceSeparated(s: string) {
    |s| > 0 && s[0] != ' ' && s[|s| - 1] != ' ' && SingleSpaced(s)
  }

  predicate NoEmptyPart(parts: seq<string>) {
    forall i :: 0 <= i < |parts| ==> |parts[i]| > 0
  }

  lemma SpaceSeparatedAfterSpace(c: char, t: string)
    requires c != ' ' && |t| > 0 && t[0] == ' '
    ensures SpaceSeparated([c] + t) <==> SpaceSeparated(t[1..])
  {
    var s := [c] + t;
    var u := t[1..];
    assert forall i :: 0 <= i < |u| ==> u[i] == s[i + 2];
    if SpaceSeparated(s) {
      assert s[1] == ' ';
      assert |s| > 2;
      assert s[2] != ' ';
      assert |u| > 0;
      assert SingleSpaced(u) by {
        forall i | 0 < i < |u| && u[i] == ' ' ensures u[i - 1] != ' ' {
          assert s[i + 2] == ' ';
        }
      }
    }
    if SpaceSeparated(u) {
      assert SingleSpaced(s) by {
        forall i | 0 < i < |s| && s[i] == ' ' ensures s[i - 1] != ' ' {
          if i > 2 {
            assert u[i - 2] == ' ';
          }
        }
      }
    }
  }

  lemma SpaceSeparatedAfterWordChar(c: char, t: string)
    requires c != ' ' && |t| > 0 && t[0] != ' '
    ensures SpaceSeparated([c] + t) <==> SpaceSeparated(t)
  {
    var s := [c] + t;
    assert forall i :: 0 <= i < |t| ==> t[i] == s[i + 1];
    if SpaceSeparated(s) {
      assert SingleSpaced(t) by {
        forall i | 0 < i < |t| && t[i] == ' ' ensures t[i - 1] != ' ' {
          assert s[i + 1] == ' ';
        }
      }
    }
  }

  /** Every token is non-empty exactly when the string is non-empty, has no
      space at either end and never two spaces in a row. */
  lemma {:induction false} SplitNoEmpty(s: string)
    ensures NoEmptyPart(Split(s)) <==> SpaceSeparated(s)
    decreases |s|
  {
    if |s| == 0 {
      assert Split(s)[0] == "";
    } else if s[0] == ' ' {
      assert Split(s)[0] == "";
    } else {
      var t := s[1..];
      var rest := Split(t);
      var parts := Split(s);
      assert s == [s[0]] + t;
      assert parts == [[s[0]] + rest[0]] + rest[1..];
      assert NoEmptyPart(parts) <==> NoEmptyPart(rest[1..]) by {
        assert |parts[0]| > 0;
        assert forall i :: 1 <= i < |parts| ==> parts[i] == rest[i];
      }
      if |t| == 0 {
        assert rest == [""];
      } else if t[0] == ' ' {
        assert rest == [""] + Split(t[1..]);
        assert rest[1..] == Split(t[1..]);
        SplitNoEmpty(t[1..]);
        SpaceSeparatedAfterSpace(s[0], t);
      } else {
        SplitNoEmpty(t);
        assert rest[0] == [t[0]] + Split(t[1..])[0];
        assert NoEmptyPart(rest) <==> NoEmptyPart(rest[1..]) by {
          assert |rest[0]| > 0;
          assert forall i :: 1 <= i < |rest| ==> rest[i] == rest[1..][i - 1];
        }
        SpaceSeparatedAfterWordChar(s[0], t);
      }
    }
  }

  /** `tokenize` is `split(' ')`: at least one token, no token holds a space,
      joining with `' '` restores the text, and `tokenize("") == [""]`. */
  lemma TokenizeSplits(text: string)
    ensures |Tokenize(text)| >= 1
    ensures forall i :: 0 <= i < |Tokenize(text)| ==> ' ' !in Tokenize(text)[i]
    ensures Join(Tokenize(text)) == text
    ensures text == "" ==> Tokenize(text) == [""]
  {
    JoinSplit(text);
  }

  /** `word_tokenize` splits the preprocessed text: the tokens join back to
      it, carry all its non-space characters, and none is empty unless the
      preprocessed text is. */
  lemma WordTokenizeShape(text: string, lower: bool)
    ensures Join(WordTokenize(text, lower)) == Preprocess(text, lower)
    ensures Concat(WordTokenize(text, lower)) == if lower then LowerStr(Keep(text)) else Keep(text)
    ensures Preprocess(text, lower) != "" ==> NoEmptyPart(WordTokenize(text, lower))
  {
    var p := Preprocess(text, lower);
    JoinSplit(p);
    ConcatSplit(p);
    PreprocessContent(text, lower);
    PreprocessShape(text, lower);
    SplitNoEmpty(p);
  }

  lemma TextTokenNoSpace(w: string)
    requires IsTextToken(w)
    ensures ' ' !in w
  {
    if IsWordRun(w) {
      assert !IsWordChar(' ');
    } else if IsMarker(w) {
      assert forall i :: 1 <= i < |w| - 1 ==> w[i] != ' ';
    }
  }

  /** Text tokens written with single spaces come back from `word_tokenize`
      one for one (lowercased when `lower` is set); in particular the markers
      `<s>`, `</s>`, `<unk>` and `<pad>` survive as single tokens. */
  lemma WordTokenizeJoin(ws: seq<string>, lower: bool)
    requires |ws| > 0
    requires forall i :: 0 <= i < |ws| ==> IsTextToken(ws[i])
    ensures WordTokenize(Join(ws), lower) == if lower then LowerAll(ws) else ws
  {
    PreprocessJoin(ws, lower);
    var out := if lower then LowerAll(ws) else ws;
    forall i | 0 <= i < |out| ensures ' ' !in out[i] {
      if lower {
        TextTokenLower(ws[i]);
      }
      TextTokenNoSpace(out[i]);
    }
    SplitJoin(out);
  }
}

=== FILE: tokenizer.dfy ===
/** The `Tokenizer` object: its configuration, a fresh (empty) vocabulary,
    `__len__`, the special-token id accessors, and the conversions between
    tokens and ids (`convert_tokens_to_ids`, `convert_ids_to_tokens`,
    `decode`). Python's single-or-list arguments become two functions each;
    raised exceptions become `Failure` results. */
module Tokenizers {
  import opened Wrappers
  import opened Vocabulary

  /** The constructor's arguments, kept as given. */
  datatype Config = Config(
    maxSequenceLength: int,
    unkToken: string,
    bosToken: string,
    eosToken: string,
    padToken: string,
    addSpecialTokens: bool,
    lower: bool,
    padding: bool,
    truncate: bool)

  /** The constructor's default arguments. */
  const DefaultConfig := Config(1024, "<unk>", "<s>", "</s>", "<pad>", true, true, true, true)

  datatype Tokenizer = Tokenizer(vocab: Vocab, config: Config)

  /** The exceptions the conversions raise: a missing dictionary key, or a
      list index out of range. */
  datatype Error = KeyError(key: string) | IndexError(index: nat)

  /** `Tokenizer.__len__`. */
  function Len(t: Tokenizer): nat {
    Size(t.vocab)
  }

  /** The id of a special token, or `None` when it is not in the vocabulary. */
  function SpecialId(t: Tokenizer, token: string): (r: Option<nat>)
    ensures r.Some? <==> token in t.vocab.word2idx
    ensures r.Some? ==> r.value == t.vocab.word2idx[token]
    ensures Valid(t.vocab) && r.Some? ==> r.value < Len(t) && t.vocab.idx2word[r.value] == token
  {
    Lookup(t.vocab, token)
  }

  /** `unk_token_id`. */
  function UnkTokenId(t: Tokenizer): (r: Option<nat>)
    ensures r.Some? <==> t.config.unkToken in t.vocab.word2idx
    ensures Valid(t.vocab) && r.Some? ==> r.value < Len(t) && t.vocab.idx2word[r.value] == t.config.unkToken
  {
    SpecialId(t, t.config.unkToken)
  }

  /** `bos_token_id`. */
  function BosTokenId(t: Tokenizer): (r: Option<nat>)
    ensures r.Some? <==> t.config.bosToken in t.vocab.word2idx
    ensures Valid(t.vocab) && r.Some? ==> r.value < Len(t) && t.vocab.idx2word[r.value] == t.config.bosToken
  {
    SpecialId(t, t.config.bosToken)
  }

  /** `eos_token_id`. */
  function EosTokenId(t: Tokenizer): (r: Option<nat>)
    ensures r.Some? <==> t.config.eosToken in t.vocab.word2idx
    ensures Valid(t.vocab) && r.Some? ==> r.value < Len(t) && t.vocab.idx2word[r.value] == t.config.eosToken
  {
    SpecialId(t, t.config.eosToken)
  }

  /** `pad_token_id`. */
  function PadTokenId(t: Tokenizer): (r: Option<nat>)
    ensures r.Some? <==> t.config.padToken in t.vocab.word2idx
    ensures Valid(t.vocab) && r.Some? ==> r.value < Len(t) && t.vocab.idx2word[r.value] == t.config.padToken
  {
    SpecialId(t, t.config.padToken)
  }

  /** `Tokenizer(...)`: the configuration as given and an empty vocabulary,
      so every special-token id is `None`. */
  function New(config: Config): (t: Tokenizer)
    ensures t.config == config
    ensures Valid(t.vocab) && Len(t) == 0 && |t.vocab.word2idx| == 0
    ensures UnkTokenId(t).None? && BosTokenId(t).None? && EosTokenId(t).None? && PadTokenId(t).None?
  {
    Tokenizer(Empty(), config)
  }

  // ---------------------------------------------------------------------
  // convert_tokens_to_ids

  /** The hard-coded key looked up before any conversion. */
  const Unk := "<unk>"

  /** What `convert_tokens_to_ids` returns for a single token: a one-element
      list when the token is known, the unknown id as a bare integer when not. */
  datatype TokenIds = IdList(ids: seq<nat>) | BareId(id: nat)

  /** The id a token converts to: its own, or the unknown id. */
  function IdOrUnk(v: Vocab, token: string): nat
    requires Unk in v.word2idx
  {
    if token in v.word2idx then v.word2idx[token] else v.word2idx[Unk]
  }

  /** `convert_tokens_to_ids(token)` for one string. */
  function ConvertTokenToIds(v: Vocab, token: string): (r: Result<TokenIds, Error>)
    ensures r.Failure? <==> Unk !in v.word2idx
    ensures r.Failure? ==> r.error == KeyError(Unk)
    ensures r.Success? ==> (r.value.IdList? <==> token in v.word2idx)
    ensures r.Success? && r.value.IdList? ==> r.value.ids == [v.word2idx[token]]
    ensures r.Success? && r.value.BareId? ==> r.value.id == v.word2idx[Unk]
    ensures Valid(v) && r.Success? && r.value.IdList? ==> v.idx2word[r.value.ids[0]] == token
  {
    if Unk !in v.word2idx then Failure(KeyError(Unk))
    else if token in v.word2idx then Success(IdList([v.word2idx[token]]))
    else Success(BareId(v.word2idx[Unk]))
  }

  /** `convert_tokens_to_ids(tokens)` for a list: one id per token, the
      unknown id for tokens not in the vocabulary. */
  function ConvertTokensToIds(v: Vocab, tokens: seq<string>): (r: Result<seq<nat>, Error>)
    ensures r.Failure? <==> Unk !in v.word2idx
    ensures r.Failure? ==> r.error == KeyError(Unk)
    ensures r.Success? ==> |r.value| == |tokens|
    ensures r.Success? ==> forall i :: 0 <= i < |tokens| && tokens[i] in v.word2idx ==> r.value[i] == v.word2idx[tokens[i]]
    ensures r.Success? ==> forall i :: 0 <= i < |tokens| && tokens[i] !in v.word2idx ==> r.value[i] == v.word2idx[Unk]
    ensures Valid(v) && r.Success? ==> forall i :: 0 <= i < |tokens| ==> r.value[i] < Size(v)
  {
    if Unk !in v.word2idx then Failure(KeyError(Unk))
    else Success(seq(|tokens|, i requires 0 <= i < |tokens| => IdOrUnk(v, tokens[i])))
  }

  // ---------------------------------------------------------------------
  // convert_ids_to_tokens and decode

  /** `convert_ids_to_tokens(id)` for one id: `idx2word[id]`. */
  function ConvertIdToToken(v: Vocab, id: nat): (r: Result<string, Error>)
    ensures r.Success? <==> id < Size(v)
    ensures r.Success? ==> r.value == v.idx2word[id]
    ensures r.Failure? ==> r.error == IndexError(id)
    ensures Valid(v) && r.Success? ==> r.value in v.word2idx && v.word2idx[r.value] == id
  {
    if id < |v.idx2word| then Success(v.idx2word[id]) else Failure(IndexError(id))
  }

  /** Every id is a valid index of `idx2word`. */
  predicate InRange(v: Vocab, ids: seq<nat>) {
    forall i :: 0 <= i < |ids| ==> ids[i] < Size(v)
  }

  /** `convert_ids_to_tokens(ids)` for a list: the loop stops at the first id
      out of range with an `IndexError`, otherwise maps every id through
      `idx2word`. */
  function ConvertIdsToTokens(v: Vocab, ids: seq<nat>): (r: Result<seq<string>, Error>)
    ensures r.Success? <==> InRange(v, ids)
    ensures r.Success? ==> |r.value| == |ids|
    ensures r.Success? ==> forall i :: 0 <= i < |ids| ==> r.value[i] == v.idx2word[ids[i]]
    ensures r.Failure? ==> exists k :: 0 <= k < |ids| && r.error == IndexError(ids[k]) && ids[k] >= Size(v) && InRange(v, ids[..k])
    decreases |ids|
  {
    if |ids| == 0 then Success([])
    else if ids[0] >= |v.idx2word| then
      assert ids[..0] == [];
      Failure(IndexError(ids[0]))
    else
      match ConvertIdsToTokens(v, ids[1..])
      case Failure(e) =>
        assert forall k :: 0 <= k < |ids| - 1 ==> ids[1..][..k] == ids[1..k + 1] && ids[..k + 1] == [ids[0]] + ids[1..k + 1];
        Failure(e)
      case Success(rest) => Success([v.idx2word[ids[0]]] + rest)
  }

  /** `decode(ids)` on a flat list: `ids[0]` is read first, so an empty list
      raises an `IndexError`; otherwise it is `convert_ids_to_tokens(ids)`. */
  function DecodeFlat(v: Vocab, ids: seq<nat>): (r: Result<seq<string>, Error>)
    ensures r.Success? <==> |ids| > 0 && InRange(v, ids)
    ensures |ids| == 0 ==> r == Failure(IndexError(0))
    ensures r.Failure? ==> r.error.IndexError?
    ensures |ids| > 0 && r.Failure? ==> exists k :: 0 <= k < |ids| && r.error == IndexError(ids[k]) && ids[k] >= Size(v) && InRange(v, ids[..k])
    ensures r.Success? ==> |r.value| == |ids| && forall i :: 0 <= i < |ids| ==> r.value[i] == v.idx2word[ids[i]]
  {
    if |ids| == 0 then Failure(IndexError(0)) else ConvertIdsToTokens(v, ids)
  }

  /** Every row of a batch is in range. */
  predicate RowsInRange(v: Vocab, rows: seq<seq<nat>>) {
    forall i :: 0 <= i < |rows| ==> InRange(v, rows[i])
  }

  /** The loop of `decode` over a batch, row by row, stopping at the first error. */
  function DecodeRows(v: Vocab, rows: seq<seq<nat>>): (r: Result<seq<seq<string>>, Error>)
    ensures r.Success? <==> RowsInRange(v, rows)
    ensures r.Failure? ==> r.error.IndexError?
    ensures r.Failure? ==> exists i :: 0 <= i < |rows| && RowsInRange(v, rows[..i]) && ConvertIdsToTokens(v, rows[i]) == Failure(r.error)
    ensures r.Success? ==> |r.value| == |rows|
    ensures r.Success? ==> forall i :: 0 <= i < |rows| ==> ConvertIdsToTokens(v, rows[i]) == Success(r.value[i])
    decreases |rows|
  {
    if |rows| == 0 then Success([])
    else
      match ConvertIdsToTokens(v, rows[0])
      case Failure(e) =>
        assert rows[..0] == [];
        Failure(e)
      case Success(first) =>
        match DecodeRows(v, rows[1..])
        case Failure(e) =>
          FirstBadRow(v, rows, e);
          Failure(e)
        case Success(rest) => Success([first] + rest)
  }

  /** A bad row found after a good first row is still the first bad row. */
  lemma FirstBadRow(v: Vocab, rows: seq<seq<nat>>, e: Error)
    requires |rows| > 0 && InRange(v, rows[0])
    requires exists i :: 0 <= i < |rows| - 1 && RowsInRange(v, rows[1..][..i]) && ConvertIdsToTokens(v, rows[1..][i]) == Failure(e)
    ensures exists i :: 0 <= i < |rows| && RowsInRange(v, rows[..i]) && ConvertIdsToTokens(v, rows[i]) == Failure(e)
  {
    var i :| 0 <= i < |rows| - 1 && RowsInRange(v, rows[1..][..i]) && ConvertIdsToTokens(v, rows[1..][i]) == Failure(e);
    assert rows[..i + 1] == [rows[0]] + rows[1..][..i];
    assert rows[i + 1] == rows[1..][i];
  }

  /** `decode(ids)` on a batch: every row decoded on its own, so the result
      has as many rows as the input and each row keeps its length. */
  function DecodeBatch(v: Vocab, rows: seq<seq<nat>>): (r: Result<seq<seq<string>>, Error>)
    ensures r.Success? <==> |rows| > 0 && RowsInRange(v, rows)
    ensures |rows| == 0 ==> r == Failure(IndexError(0))
    ensures r.Failure? ==> r.error.IndexError?
    ensures |rows| > 0 && r.Failure? ==> exists i :: 0 <= i < |rows| && RowsInRange(v, rows[..i]) && ConvertIdsToTokens(v, rows[i]) == Failure(r.error)
    ensures r.Success? ==> |r.value| == |rows|
    ensures r.Success? ==> forall i :: 0 <= i < |rows| ==> |r.value[i]| == |rows[i]|
    ensures r.Success? ==> forall i, j :: 0 <= i < |rows| && 0 <= j < |rows[i]| ==> r.value[i][j] == v.idx2word[rows[i][j]]
  {
    if |rows| == 0 then Failure(IndexError(0)) else DecodeRows(v, rows)
  }

  // ---------------------------------------------------------------------
  // Round trips

  /** Ids in range become tokens and convert back to the same ids. */
  lemma IdsRoundTrip(v: Vocab, ids: seq<nat>)
    requires Valid(v) && Unk in v.word2idx && InRange(v, ids)
    ensures ConvertIdsToTokens(v, ids).Success?
    ensures ConvertTokensToIds(v, ConvertIdsToTokens(v, ids).value) == Success(ids)
  {
    var toks := ConvertIdsToTokens(v, ids).value;
    var back := ConvertTokensToIds(v, toks).value;
    forall i | 0 <= i < |ids| ensures back[i] == ids[i] {
      var w := toks[i];
      assert w == v.idx2word[ids[i]];
      assert w in v.word2idx && v.word2idx[w] == ids[i];
    }
    assert back == ids;
  }

  /** Tokens become ids and back: known tokens come back as themselves,
      unknown ones as `<unk>`. */
  lemma TokensRoundTrip(v: Vocab, tokens: seq<string>)
    requires Valid(v) && Unk in v.word2idx
    ensures ConvertTokensToIds(v, tokens).Success?
    ensures ConvertIdsToTokens(v, ConvertTokensToIds(v, tokens).value)
         == Success(seq(|tokens|, i requires 0 <= i < |tokens| => if tokens[i] in v.word2idx then tokens[i] else Unk))
  {
    var ids := ConvertTokensToIds(v, tokens).value;
    var expected := seq(|tokens|, i requires 0 <= i < |tokens| => if tokens[i] in v.word2idx then tokens[i] else Unk);
    assert InRange(v, ids);
    var back := ConvertIdsToTokens(v, ids).value;
    forall i | 0 <= i < |tokens| ensures back[i] == expected[i] {
      assert back[i] == v.idx2word[ids[i]];
      var w := if tokens[i] in v.word2idx then tokens[i] else Unk;
      assert w in v.word2idx && ids[i] == v.word2idx[w];
    }
    assert back == expected;
  }

  /** One id becomes its token, and the token converts to a one-element list
      holding that id. */
  lemma IdRoundTrip(v: Vocab, id: nat)
    requires Valid(v) && Unk in v.word2idx && id < Size(v)
    ensures ConvertTokenToIds(v, ConvertIdToToken(v, id).value) == Success(IdList([id]))
  {
  }

  /** A batch decodes row by row exactly as each non-empty row decodes alone. */
  lemma DecodeBatchRows(v: Vocab, rows: seq<seq<nat>>)
    requires DecodeBatch(v, rows).Success?
    ensures forall i :: 0 <= i < |rows| && |rows[i]| > 0 ==> DecodeFlat(v, rows[i]) == Success(DecodeBatch(v, rows).value[i])
  {
  }
}

=== FILE: vocabulary.dfy ===
/** The tokenizer's vocabulary: the two views `idx2word` (id to token, a dense
    list) and `word2idx` (token to id), `__len__`, token lookup, and the line
    logic of `save_tokenizer` and `load_tokenizer` over file contents. */
module Vocabulary {
  import opened Text
  import opened Wrappers

  datatype Vocab = Vocab(idx2word: seq<string>, word2idx: map<string, nat>)

  /** The two views describe one bijection between tokens and the ids
      `0 .. |idx2word| - 1`. */
  predicate Valid(v: Vocab) {
    && (forall i :: 0 <= i < |v.idx2word| ==> v.idx2word[i] in v.word2idx && v.word2idx[v.idx2word[i]] == i)
    && (forall w :: w in v.word2idx ==> v.word2idx[w] < |v.idx2word| && v.idx2word[v.word2idx[w]] == w)
  }

  predicate Distinct(ws: seq<string>) {
    forall i, j :: 0 <= i < j < |ws| ==> ws[i] != ws[j]
  }

  /** The vocabulary of a freshly constructed tokenizer. */
  function Empty(): (v: Vocab)
    ensures Valid(v)
    ensures |v.idx2word| == 0 && |v.word2idx| == 0
  {
    Vocab([], map[])
  }

  /** `Tokenizer.__len__`. */
  function Size(v: Vocab): nat {
    |v.idx2word|
  }

  /** The token-to-id view of a tokenizer. */
  function Lookup(v: Vocab, token: string): (r: Option<nat>)
    ensures r.Some? <==> token in v.word2idx
    ensures Valid(v) && r.Some? ==> r.value < Size(v) && v.idx2word[r.value] == token
    ensures Valid(v) && r.None? ==> forall i :: 0 <= i < Size(v) ==> v.idx2word[i] != token
  {
    if token !in v.word2idx then None else Some(v.word2idx[token])
  }

  lemma ValidDistinct(v: Vocab)
    requires Valid(v)
    ensures Distinct(v.idx2word)
  {
    forall i, j | 0 <= i < j < |v.idx2word| ensures v.idx2word[i] != v.idx2word[j] {
      assert v.word2idx[v.idx2word[i]] == i;
      assert v.word2idx[v.idx2word[j]] == j;
    }
  }

  function Elements(ws: seq<string>): set<string> {
    set i | 0 <= i < |ws| :: ws[i]
  }

  lemma {:induction false} DistinctCard(ws: seq<string>)
    requires Distinct(ws)
    ensures |Elements(ws)| == |ws|
    decreases |ws|
  {
    if |ws| > 0 {
      var last := ws[|ws| - 1];
      var init := ws[..|ws| - 1];
      assert Distinct(init);
      DistinctCard(init);
      assert Elements(ws) == Elements(init) + {last};
      assert last !in Elements(init);
    }
  }

  /** `len(tokenizer)` is also the number of tokens in `word2idx`. */
  lemma SizeIsKeyCount(v: Vocab)
    requires Valid(v)
    ensures |v.word2idx| == Size(v)
  {
    ValidDistinct(v);
    DistinctCard(v.idx2word);
    assert v.word2idx.Keys == Elements(v.idx2word);
  }

  /** One view determines the other: two valid vocabularies with the same
      `idx2word` are equal. */
  lemma ValidUnique(a: Vocab, b: Vocab)
    requires Valid(a) && Valid(b) && a.idx2word == b.idx2word
    ensures a == b
  {
    assert a.word2idx.Keys == b.word2idx.Keys;
    forall w | w in a.word2idx ensures a.word2idx[w] == b.word2idx[w] {
      ValidDistinct(a);
    }
  }

  // ---------------------------------------------------------------------
  // load_tokenizer

  /** One line of `load_tokenizer`: an unseen token gets id `len(idx2word)`
      and is appended; a known token is skipped. */
  function AddToken(v: Vocab, w: string): (r: Vocab)
    ensures Valid(v) ==> Valid(r)
    ensures w in r.word2idx
    ensures r.word2idx.Keys == v.word2idx.Keys + {w}
    ensures w in v.word2idx ==> r == v
    ensures w !in v.word2idx ==> r.idx2word == v.idx2word + [w] && r.word2idx[w] == Size(v)
    ensures forall u :: u in v.word2idx ==> r.word2idx[u] == v.word2idx[u]
  {
    if w in v.word2idx then v
    else Vocab(v.idx2word + [w], v.word2idx[w := |v.idx2word|])
  }

  /** The tokens `load_tokenizer` reads: every line stripped. */
  function Stripped(lines: seq<string>): (ws: seq<string>)
    ensures |ws| == |lines|
  {
    seq(|lines|, i requires 0 <= i < |lines| => Strip(lines[i]))
  }

  lemma ElementsCons(ws: seq<string>)
    requires |ws| > 0
    ensures Elements(ws) == {ws[0]} + Elements(ws[1..])
  {
    assert forall i :: 0 < i < |ws| ==> ws[i] == ws[1..][i - 1];
  }

  /** The tokens of `ws` that are not in `known`, each once, in the order of
      their first occurrence. */
  function NewTokens(known: set<string>, ws: seq<string>): (nw: seq<string>)
    ensures Distinct(nw)
    ensures forall i :: 0 <= i < |nw| ==> nw[i] !in known
    ensures Elements(nw) + known == Elements(ws) + known
    decreases |ws|
  {
    if |ws| == 0 then []
    else
      ElementsCons(ws);
      if ws[0] in known then NewTokens(known, ws[1..])
      else
        var rest := NewTokens(known + {ws[0]}, ws[1..]);
        ElementsCons([ws[0]] + rest);
        assert ([ws[0]] + rest)[1..] == rest;
        [ws[0]] + rest
  }

  /** The `AddToken` steps of `load_tokenizer` over tokens already stripped. */
  function LoadTokens(v: Vocab, ws: seq<string>): (r: Vocab)
    ensures Valid(v) ==> Valid(r)
    ensures v.idx2word <= r.idx2word
    ensures r.idx2word == v.idx2word + NewTokens(v.word2idx.Keys, ws)
    ensures forall u :: u in v.word2idx ==> u in r.word2idx && r.word2idx[u] == v.word2idx[u]
    ensures r.word2idx.Keys == v.word2idx.Keys + Elements(ws)
    decreases |ws|
  {
    if |ws| == 0 then v
    else
      ElementsCons(ws);
      var v' := AddToken(v, ws[0]);
      if ws[0] !in v.word2idx then
        AppendAssoc(v.idx2word, [ws[0]], NewTokens(v'.word2idx.Keys, ws[1..]));
        LoadTokens(v', ws[1..])
      else
        LoadTokens(v', ws[1..])
  }

  /** `load_tokenizer` over the lines of the file, in order. The vocabulary
      is not reset: existing tokens keep their ids, and every stripped line
      ends up as a token. */
  function Load(v: Vocab, lines: seq<string>): (r: Vocab)
    ensures Valid(v) ==> Valid(r)
    ensures v.idx2word <= r.idx2word
    ensures r.idx2word == v.idx2word + NewTokens(v.word2idx.Keys, Stripped(lines))
    ensures forall u :: u in v.word2idx ==> u in r.word2idx && r.word2idx[u] == v.word2idx[u]
    ensures r.word2idx.Keys == v.word2idx.Keys + Elements(Stripped(lines))
  {
    LoadTokens(v, Stripped(lines))
  }

  /** Tokens are processed in order: loading one more token is one more
      `AddToken` step on the result. */
  lemma {:induction false} LoadSnoc(v: Vocab, ws: seq<string>, w: string)
    ensures LoadTokens(v, ws + [w]) == AddToken(LoadTokens(v, ws), w)
    decreases |ws|
  {
    if |ws| == 0 {
      assert ws + [w] == [w];
    } else {
      assert (ws + [w])[1..] == ws[1..] + [w];
      LoadSnoc(AddToken(v, ws[0]), ws[1..], w);
    }
  }

  /** Loading tokens that are all known changes nothing. */
  lemma {:induction false} LoadKnown(v: Vocab, ws: seq<string>)
    requires forall i :: 0 <= i < |ws| ==> ws[i] in v.word2idx
    ensures LoadTokens(v, ws) == v
    decreases |ws|
  {
    if |ws| > 0 {
      LoadKnown(v, ws[1..]);
    }
  }

  /** Loading the same file twice is the same as loading it once. */
  lemma LoadTwice(v: Vocab, lines: seq<string>)
    ensures Load(Load(v, lines), lines) == Load(v, lines)
  {
    var ws := Stripped(lines);
    var r := LoadTokens(v, ws);
    forall i | 0 <= i < |ws| ensures ws[i] in r.word2idx {
      assert ws[i] in Elements(ws);
    }
    LoadKnown(r, ws);
  }

  /** Loading distinct new tokens appends them in order. */
  lemma {:induction false} LoadFresh(v: Vocab, ws: seq<string>)
    requires Distinct(ws)
    requires forall i :: 0 <= i < |ws| ==> ws[i] !in v.word2idx
    ensures LoadTokens(v, ws).idx2word == v.idx2word + ws
    decreases |ws|
  {
    if |ws| > 0 {
      var v' := AddToken(v, ws[0]);
      assert v'.idx2word == v.idx2word + [ws[0]];
      forall i | 0 <= i < |ws[1..]| ensures ws[1..][i] !in v'.word2idx {
        assert ws[i + 1] != ws[0];
      }
      LoadFresh(v', ws[1..]);
      ConsAppend(v.idx2word, ws);
    }
  }

  // ---------------------------------------------------------------------
  // The vocabulary file

  /** `save_tokenizer`: every token of `idx2word`, in id order, followed by a newline. */
  function SaveWords(ws: seq<string>): (text: string)
    decreases |ws|
  {
    if |ws| == 0 then "" else ws[0] + "\n" + SaveWords(ws[1..])
  }

  function Save(v: Vocab): string {
    SaveWords(v.idx2word)
  }

  /** Reading a file in text mode: `"\r\n"` and a lone `"\r"` both become `"\n"`. */
  function TranslateNewlines(s: string): (r: string)
    ensures '\r' !in r
    decreases |s|
  {
    if |s| == 0 then ""
    else if s[0] == '\r' then "\n" + TranslateNewlines(if |s| > 1 && s[1] == '\n' then s[2..] else s[1..])
    else [s[0]] + TranslateNewlines(s[1..])
  }

  /** Length of the first line of `s`, its newline included. */
  function LineLen(s: string): (n: nat)
    requires |s| > 0
    ensures 1 <= n <= |s|
    ensures forall i :: 0 <= i < n - 1 ==> s[i] != '\n'
    ensures n == |s| || s[n - 1] == '\n'
    decreases |s|
  {
    if s[0] == '\n' || |s| == 1 then 1 else 1 + LineLen(s[1..])
  }

  /** One line as `for line in f` yields it: non-empty, with a newline at
      most as its last character. */
  predicate IsLine(l: string) {
    |l| > 0 && forall k :: 0 <= k < |l| - 1 ==> l[k] != '\n'
  }

  /** A line that a newline ends. */
  predicate Ended(l: string) {
    |l| > 0 && l[|l| - 1] == '\n'
  }

  /** Iterating over a file: the lines make up the whole text, each keeps its
      `'\n'`, every line but the last ends with one, and none holds another;
      so a line ends exactly after each newline. */
  function SplitLines(s: string): (lines: seq<string>)
    ensures Concat(lines) == s
    ensures forall i :: 0 <= i < |lines| ==> IsLine(lines[i])
    ensures forall i :: 0 <= i < |lines| - 1 ==> Ended(lines[i])
    decreases |s|
  {
    if |s| == 0 then []
    else
      var n := LineLen(s);
      var rest := SplitLines(s[n..]);
      LinesCons(s, n, rest);
      [s[..n]] + rest
  }

  lemma LinesCons(s: string, n: nat, rest: seq<string>)
    requires 0 < n <= |s|
    requires forall k :: 0 <= k < n - 1 ==> s[k] != '\n'
    requires n == |s| || s[n - 1] == '\n'
    requires Concat(rest) == s[n..]
    requires forall i :: 0 <= i < |rest| ==> IsLine(rest[i])
    requires forall i :: 0 <= i < |rest| - 1 ==> Ended(rest[i])
    ensures Concat([s[..n]] + rest) == s
    ensures forall i :: 0 <= i < |rest| + 1 ==> IsLine(([s[..n]] + rest)[i])
    ensures forall i :: 0 <= i < |rest| ==> Ended(([s[..n]] + rest)[i])
  {
    var first := s[..n];
    LinesConcat(s, n, rest);
    assert IsLine(first);
    if |rest| > 0 {
      assert n < |s| by {
        assert Concat(rest) == rest[0] + Concat(rest[1..]);
      }
      assert Ended(first);
    }
    LinesShape(first, rest);
  }

  lemma LinesConcat(s: string, n: nat, rest: seq<string>)
    requires n <= |s| && Concat(rest) == s[n..]
    ensures Concat([s[..n]] + rest) == s
  {
    assert ([s[..n]] + rest)[1..] == rest;
    assert s == s[..n] + s[n..];
  }

  lemma LinesShape(first: string, rest: seq<string>)
    requires IsLine(first) && (|rest| > 0 ==> Ended(first))
    requires forall i :: 0 <= i < |rest| ==> IsLine(rest[i])
    requires forall i :: 0 <= i < |rest| - 1 ==> Ended(rest[i])
    ensures forall i :: 0 <= i < |rest| + 1 ==> IsLine(([first] + rest)[i])
    ensures forall i :: 0 <= i < |rest| ==> Ended(([first] + rest)[i])
  {
    var lines := [first] + rest;
    forall i | 0 < i < |rest| + 1
      ensures lines[i] == rest[i - 1]
    {
    }
  }

  /** The first line of a non-empty text, then the lines of the remainder. */
  lemma SplitLinesCons(s: string)
    requires |s| > 0
    ensures SplitLines(s) == [s[..LineLen(s)]] + SplitLines(s[LineLen(s)..])
  {
  }

  /** The lines `for line in f` yields for a file whose contents are `text`. */
  function FileLines(text: string): seq<string> {
    SplitLines(TranslateNewlines(text))
  }

  /** `load_tokenizer` on a file whose contents are `text`. */
  function LoadFile(v: Vocab, text: string): Vocab {
    Load(v, FileLines(text))
  }

  /** Text without carriage returns reads back unchanged. */
  lemma {:induction false} TranslateNoCR(s: string)
    requires '\r' !in s
    ensures TranslateNewlines(s) == s
    decreases |s|
  {
    if |s| > 0 {
      TranslateNoCR(s[1..]);
      assert s == [s[0]] + s[1..];
    }
  }

  /** `"\r\n"` reads as one newline, and so does a `'\r'` that no `'\n'`
      follows. */
  lemma TranslateCR(t: string)
    ensures TranslateNewlines("\r\n" + t) == "\n" + TranslateNewlines(t)
    ensures |t| == 0 || t[0] != '\n' ==> TranslateNewlines("\r" + t) == "\n" + TranslateNewlines(t)
  {
    assert ("\r\n" + t)[2..] == t;
    assert ("\r" + t)[1..] == t;
  }

  /** Newlines are translated piece by piece, as long as a cut does not
      separate a `'\r'` from the `'\n'` after it. */
  lemma {:induction false} TranslateAppend(a: string, b: string)
    requires |a| == 0 || a[|a| - 1] != '\r'
    ensures TranslateNewlines(a + b) == TranslateNewlines(a) + TranslateNewlines(b)
    decreases |a|
  {
    if |a| > 0 {
      var k := if a[0] == '\r' && a[1] == '\n' then 2 else 1;
      assert (a + b)[k..] == a[k..] + b;
      TranslateAppend(a[k..], b);
      var h := if a[0] == '\r' then "\n" else [a[0]];
      assert TranslateNewlines(a) == h + TranslateNewlines(a[k..]);
      assert TranslateNewlines(a + b) == h + TranslateNewlines(a[k..] + b);
      AppendAssoc(h, TranslateNewlines(a[k..]), TranslateNewlines(b));
    } else {
      assert a + b == b;
    }
  }

  lemma {:induction false} SaveWordsNoCR(ws: seq<string>)
    requires forall i :: 0 <= i < |ws| ==> '\r' !in ws[i]
    ensures '\r' !in SaveWords(ws)
    decreases |ws|
  {
    if |ws| > 0 {
      SaveWordsNoCR(ws[1..]);
    }
  }

  lemma LineLenWord(w: string, rest: string)
    requires '\n' !in w
    ensures LineLen(w + "\n" + rest) == |w| + 1
  {
    var s := w + "\n" + rest;
    var n := LineLen(s);
    assert s[|w|] == '\n';
    assert forall i :: 0 <= i < |w| ==> s[i] != '\n' by {
      assert forall i :: 0 <= i < |w| ==> s[i] == w[i];
    }
  }

  /** A token without a newline, followed by one, is the first line. */
  lemma FirstSavedLine(w: string, rest: string)
    requires '\n' !in w
    ensures SplitLines(w + "\n" + rest) == [w + "\n"] + SplitLines(rest)
  {
    var s := w + "\n" + rest;
    LineLenWord(w, rest);
    var n := |w| + 1;
    assert s[..n] == w + "\n";
    assert s[n..] == rest;
    SplitLinesCons(s);
  }

  lemma SavedLinesCons(ws: seq<string>, tail: seq<string>)
    requires |ws| > 0
    requires tail == seq(|ws| - 1, i requires 0 <= i < |ws| - 1 => ws[1..][i] + "\n")
    ensures [ws[0] + "\n"] + tail == seq(|ws|, i requires 0 <= i < |ws| => ws[i] + "\n")
  {
  }

  /** Each saved token comes back as one line ending in a newline. */
  lemma {:induction false} SplitSavedLines(ws: seq<string>)
    requires forall i :: 0 <= i < |ws| ==> '\n' !in ws[i]
    ensures SplitLines(SaveWords(ws)) == seq(|ws|, i requires 0 <= i < |ws| => ws[i] + "\n")
    decreases |ws|
  {
    if |ws| > 0 {
      var rest := SaveWords(ws[1..]);
      assert SplitLines(SaveWords(ws)) == [ws[0] + "\n"] + SplitLines(rest) by {
        FirstSavedLine(ws[0], rest);
      }
      SplitSavedLines(ws[1..]);
      SavedLinesCons(ws, SplitLines(rest));
    }
  }

  /** A token `save_tokenizer` can write and `load_tokenizer` reads back
      unchanged: one line, no whitespace at either end. */
  predicate Storable(w: string) {
    '\n' !in w && '\r' !in w && Trimmed(w)
  }

  /** Loading what `save_tokenizer` wrote into a fresh tokenizer rebuilds the
      vocabulary exactly, when every token is storable. */
  lemma SaveLoad(v: Vocab)
    requires Valid(v)
    requires forall i :: 0 <= i < |v.idx2word| ==> Storable(v.idx2word[i])
    ensures LoadFile(Empty(), Save(v)) == v
  {
    var ws := v.idx2word;
    assert Stripped(FileLines(Save(v))) == ws by {
      SavedTokens(ws);
    }
    assert Load(Empty(), FileLines(Save(v))).idx2word == ws by {
      ValidDistinct(v);
      LoadFresh(Empty(), ws);
    }
    ValidUnique(LoadFile(Empty(), Save(v)), v);
  }

  /** The stripped lines of a saved file are the saved tokens. */
  lemma SavedTokens(ws: seq<string>)
    requires forall i :: 0 <= i < |ws| ==> Storable(ws[i])
    ensures Stripped(FileLines(SaveWords(ws))) == ws
  {
    SavedLines(ws);
    StrippedLines(ws);
  }

  /** A saved file reads back as one line per token. */
  lemma SavedLines(ws: seq<string>)
    requires forall i :: 0 <= i < |ws| ==> Storable(ws[i])
    ensures FileLines(SaveWords(ws)) == seq(|ws|, i requires 0 <= i < |ws| => ws[i] + "\n")
  {
    SaveWordsNoCR(ws);
    TranslateNoCR(SaveWords(ws));
    SplitSavedLines(ws);
  }

  lemma StrippedLines(ws: seq<string>)
    requires forall i :: 0 <= i < |ws| ==> Trimmed(ws[i])
    ensures Stripped(seq(|ws|, i requires 0 <= i < |ws| => ws[i] + "\n")) == ws
  {
    var lines := seq(|ws|, i requires 0 <= i < |ws| => ws[i] + "\n");
    forall i | 0 <= i < |ws| ensures Stripped(lines)[i] == ws[i] {
      StripNewline(ws[i]);
    }
  }
}

=== FILE: wrappers.dfy ===
/** Optional values and results with an error, for Python's `None` and
    raised exceptions. */
module Wrappers {

  datatype Option<+T> = None | Some(value: T)

  datatype Result<+T, +E> = Success(value: T) | Failure(error: E)
}
